=== FILE: README.md ===
# Zip Authenticode: signature comment, digest and scanner

This is a Dafny model of how `Devolutions.Authenticode` signs a ZIP archive. The signature lives in the archive's trailing comment as one line:

    ZipAuthenticode=sha256:<64 hex digits>,<base64 PowerShell signature block>

The digest covers every byte of the archive up to the end of the fixed end-of-central-directory (EOCD) record, with the two comment-length bytes zeroed. Rewriting the comment therefore never changes the digest.

## What is modelled

| Module | File | What it covers |
|---|---|---|
| `ZipRecords`, `ZipScanner` | `zip_records.dfy`, `zip_scanner.dfy` | The structural scanner of `ZipFile.cs`. Local, central and EOCD headers are read as little-endian fields. The scan walks the records from offset 0 by their signatures. Like the code, a central record's span leaves out its entry comment. |
| `ZipLayout` | `zip_layout.dfy` | The scanner seen from the writer's side. It finds the footer of every archive laid out as records plus a footer, and rejects every truncation of one. |
| `ZipComment` | `zip_comment.dfy` | `GetFileComment` and `SetFileComment`. The ushort cast of the new comment length is reproduced, as are the resize to the full encoded length and the copy of the cast count of bytes. |
| `ZipDigest` | `zip_digest.dfy` | `ComputeHash`, and `GetDigestString` in the OCI image-spec v1.0.1 digest form: `sha256:` followed by 64 lower-case hex digits. |
| `ZipEnvelope` | `zip_envelope.dfy` | Finding the signature line in the comment and slicing it at fixed positions. It also covers expanding the line into the `# SIG #` catalog, in chunks of 64 characters, and folding the catalog's lines back into one line. |
| `ZipSigning` | `zip_signing.dfy` | `Sign`, and the digest-equality check of `GetSignature`. The external signer is a parameter. |
| `SecuritySupport` | `security_support.dfy` | The int/DWORD conversions, `Succeeded`, `CheckArgForNullOrEmpty`, and the code-signing certificate rule. The rule looks for id-kp-codeSigning in the first enhanced-key-usage extension (section 4.2.1.12 of RFC 5280). |
| support | `wrappers.dfy`, `bytes.dfy`, `text.dfy`, `seqs.dfy`, `zip_errors.dfy` | `Result`/`Option`, little-endian fields, `Array.Resize`/`Array.Copy`, `Trim`/`Split`/`StartsWith`, line joining and reading, and the exceptions as a datatype. |

**How the C# constructs are modelled:**

- **Exceptions** become `Result` values that carry a `ZipError`. Each error names the exception that the code throws.
- **Null** becomes `Option`.
- **The archive** is an immutable `seq<byte>`, and the edited buffer is returned.
- **SHA-256** is the function parameter `sha256`. Its result is any 32-byte sequence.
- **UTF-8** is the parameter `utf8`, a pair of `encode` and `decode` functions. Wherever a property needs the round trip, it is a precondition of that lemma.
- **The external Authenticode signer** is the parameter `signer`. It maps the digest string to the lines of the signed file.

**Behaviours of the code that the model keeps:**

- **The signature line.** `SplitSignatureCommentLine` checks only the 23-character prefix `ZipAuthenticode=sha256:` and a length of at least 89. The digest's hex digits are not checked, and neither is the character at index 87: the line is cut at fixed positions whatever that character is.
- **Comment size.** `SetFileComment` has no error for a comment longer than 65535 bytes. It stores the byte count cast to 16 bits and resizes the buffer to the full encoded length. It then copies only as many bytes as the cast count, so the rest of the resized buffer keeps the old bytes or zeros.
- **Errors.** There is one `ZipError` per exception the code throws, named after it.
- **Entry comments.** The scanner skips a central record by its header, file name and extra field only. An archive whose central record has an entry comment is therefore rejected, unless the comment happens to begin with a record signature.
- **Empty blocks.** `SaveSignatureData` never writes a catalog with an empty block, because `SplitSignatureCommentLine` rejects the 88-character line `ZipAuthenticode=<digest>,`. `LoadSignatureFile` can still produce that line. Given a four-line signed file with nothing between the markers and a blank line after them, `Sign` stores the line, and `GetSignature` then rejects the archive with InvalidSignatureLine.

## Model

| member | source | states |
|---|---|---|
| ZipRecords.SpansOfParsedHeaders | dotnet/Devolutions.Authenticode/ZipFile.cs:16-74 | The declared span of each record, read from the header fields through the struct overlay, is the size that the parsed header declares. |
| ZipRecords.ParseSerializedLocalFileHeader | dotnet/Devolutions.Authenticode/ZipFile.cs:16-33 | The 30-byte local header read through the struct overlay gives back every field written in declaration order (little-endian `uint` and `ushort`), whatever bytes follow. |
| ZipRecords.ParseSerializedCentralFileHeader | dotnet/Devolutions.Authenticode/ZipFile.cs:35-58 | The 46-byte central header read through the struct overlay gives back all 17 fields written in declaration order, whatever bytes follow. |
| ZipRecords.ParseSerializedEndOfCentralDirHeader | dotnet/Devolutions.Authenticode/ZipFile.cs:60-74 | The 22-byte EOCD header read through the struct overlay gives back its 8 fields written in declaration order, whatever bytes follow. |
| ZipScanner.LocalFileRecordSize | dotnet/Devolutions.Authenticode/ZipFile.cs:78-103 | A size is returned exactly when the 30-byte header fits and `30 + compressedSize + fileNameLength + extraFieldLength` of the parsed header ends inside the buffer. That sum is the size. |
| ZipScanner.CentralFileRecordSize | dotnet/Devolutions.Authenticode/ZipFile.cs:105-130 | A size is returned exactly when the 46-byte header fits and `46 + fileNameLength + extraFieldLength` ends inside the buffer. That sum is the size, and the entry comment length is ignored. |
| ZipScanner.EndOfCentralDirRecordSize | dotnet/Devolutions.Authenticode/ZipFile.cs:132-157 | A size is returned exactly when the 22-byte record and its declared comment fit in the buffer. The size is `22 + fileCommentLength`. |
| ZipScanner.ScanStep | dotnet/Devolutions.Authenticode/ZipFile.cs:169-210 | One pass of the loop does one of three things. It advances without leaving the buffer, by exactly the span of the local record, or of the central record, at the offset. It returns exactly at a well-formed footer. Or it throws one of four errors. An unknown signature throws UnhandledRecordHeader with that signature. A local, central or EOCD signature whose record does not fit throws that record type's error. |
| ZipScanner.ScanRecords | dotnet/Devolutions.Authenticode/ZipFile.cs:165-213 | The loop terminates. On success the offset is at or after the start and holds a well-formed footer. Every failure is one of the scanner's errors. |
| ZipScanner.FindZipFooterOffset | dotnet/Devolutions.Authenticode/ZipFile.cs:159-216 | On success, the 4 little-endian bytes at `p` are `0x06054b50` and `p + 22 + commentLength(p)` does not exceed the buffer length. Every failure is a scanner error. |
| ZipScanner.ScanSkips | dotnet/Devolutions.Authenticode/ZipFile.cs:173-194 | After a record step, the scan continues from where the step lands. |
| ZipScanner.ScanStops | dotnet/Devolutions.Authenticode/ZipFile.cs:169-213 | An offset past the loop bound, or a throwing step, makes the scan fail. |
| ZipScanner.ScanFinds | dotnet/Devolutions.Authenticode/ZipFile.cs:195-204 | A footer step makes the scan return that offset. |
| ZipScanner.StepAgrees | dotnet/Devolutions.Authenticode/ZipFile.cs:169-194 | Two buffers that agree on a prefix take the same record step at every offset whose record lies in that prefix. |
| ZipScanner.EntryCommentStopsScan | dotnet/Devolutions.Authenticode/ZipFile.cs:105-130 | An archive holding one central record, then its entry comment, then a footer, is rejected with UnhandledRecordHeader carrying the comment's first four bytes. The record has an empty file name and extra field, and the comment has 4 or more bytes that do not start with a local, central or EOCD signature. This happens because the scanner does not skip the entry comment. |
| ZipScanner.ScanIgnoresComment | dotnet/Devolutions.Authenticode/ZipFile.cs:159-216 | The scan result depends only on the bytes before the footer's comment-length field, plus a well-formed footer at the same place. |
| ZipLayout.ScanLaidOut | dotnet/Devolutions.Authenticode/ZipFile.cs:165-213 | Take any prefix of a buffer laid out as well-formed records followed by a footer, and scan it from the first record. The scan finds the footer when the prefix is the whole buffer, and fails otherwise. |
| ZipLayout.ScanArchive | dotnet/Devolutions.Authenticode/ZipFile.cs:159-216 | For an archive assembled from records whose headers declare their true sizes, followed by a footer, the scanner returns the total size of the records. |
| ZipLayout.ScanRejectsTruncation | dotnet/Devolutions.Authenticode/ZipFile.cs:159-216 | The scanner rejects every proper prefix of such an archive. |
| ZipComment.GetFileComment | dotnet/Devolutions.Authenticode/ZipFile.cs:218-242 | Reading the comment fails exactly when the scanner fails, with the scanner's error, and otherwise returns the decoding of the `commentLength` bytes that follow the 22-byte footer. |
| ZipComment.WriteComment | dotnet/Devolutions.Authenticode/ZipFile.cs:251-287 | The edit keeps every byte before the length field. It stores the byte count modulo 2^16, copies that many bytes after the footer, and sizes the buffer to the full encoding. When the count fits in 16 bits, the result is the prefix, the little-endian count and the comment bytes. |
| ZipComment.SetFileComment | dotnet/Devolutions.Authenticode/ZipFile.cs:244-290 | The edit fails exactly when the scanner fails. Null counts as the empty comment. The edited buffer is the write at the footer offset, and the result is the old comment, or `""` when its length field was 0. |
| ZipComment.WriteCommentKeepsFooter | dotnet/Devolutions.Authenticode/ZipFile.cs:244-290 | Whatever bytes are written, the scanner still finds the footer at the same offset. |
| ZipComment.SetFileCommentKeepsFooter | dotnet/Devolutions.Authenticode/ZipFile.cs:244-290 | A comment whose encoding fits in 16 bits leaves the footer at the same place, and the length field then counts exactly the bytes after it. |
| ZipComment.GetFileCommentAfterSet | dotnet/Devolutions.Authenticode/ZipFile.cs:218-290 | Reading the comment back after setting it gives the comment that was set, provided UTF-8 round-trips it. |
| ZipComment.SetFileCommentTwice | dotnet/Devolutions.Authenticode/ZipFile.cs:244-290 | Setting the comment twice is the same as setting only the second one. The second call returns the first comment. |
| ZipComment.OversizedCommentBreaksFooter | dotnet/Devolutions.Authenticode/ZipFile.cs:251 | When the encoding exceeds 65535 bytes, the length field no longer describes the end of the buffer. Reading the comment back decodes only the first `n mod 2^16` of the `n` bytes. |
| ZipDigest.CanonicalInput | dotnet/Devolutions.Authenticode/ZipFile.cs:313-318 | The hash input is `p + 22` bytes long and equals the archive before the length field. Bytes `p+20` and `p+21` are 0. |
| ZipDigest.CanonicalInputSameIff | dotnet/Devolutions.Authenticode/ZipFile.cs:313-318 | Two archives with the footer at `p` have the same hash input exactly when they agree on their first `p + 20` bytes. |
| ZipDigest.ComputeHash | dotnet/Devolutions.Authenticode/ZipFile.cs:309-322 | Hashing fails exactly when the scanner fails, and with its error; otherwise it is the SHA-256 of the canonical input at the found footer offset `p`: the first `p + 22` bytes of the archive with the two comment-length bytes at `p + 20` and `p + 21` replaced by zeros. |
| ZipDigest.FormatIsLowerHex | dotnet/Devolutions.Authenticode/ZipFile.cs:305 | `BitConverter.ToString` followed by removing the dashes and lower-casing gives two lower-case hex digits per byte. |
| ZipDigest.ParseLowerHexOfLowerHex | dotnet/Devolutions.Authenticode/ZipFile.cs:305 | The lower-case hex text of a byte sequence parses back to that sequence. |
| ZipDigest.DigestString | dotnet/Devolutions.Authenticode/ZipFile.cs:305 | The digest string is 71 characters: `sha256:` followed by lower-case hex digits that parse back to the hash. |
| ZipDigest.DigestStringSameIff | dotnet/Devolutions.Authenticode/ZipFile.cs:305 | Two hashes give the same digest string exactly when they are equal. |
| ZipDigest.GetDigestString | dotnet/Devolutions.Authenticode/ZipFile.cs:292-307 | Fails exactly when the scanner fails. Otherwise it returns 71 characters, `sha256:` and 64 lower-case hex digits. |
| ZipDigest.DigestStringOfComputeHash | dotnet/Devolutions.Authenticode/ZipFile.cs:292-322 | The digest string is `sha256:` followed by the lower-case hex of exactly the bytes that `ComputeHash` returns, and it succeeds whenever `ComputeHash` does. |
| ZipDigest.SetFileCommentKeepsDigest | dotnet/Devolutions.Authenticode/ZipFile.cs:244-322 | Any comment, of any length, leaves both `ComputeHash` and `GetDigestString` of the archive unchanged. |
| ZipEnvelope.FirstSignatureLine | dotnet/Devolutions.Authenticode/ZipFile.cs:333-343 | Finds the first line whose trimmed form starts with `ZipAuthenticode`. It returns none exactly when no line qualifies. |
| ZipEnvelope.SignatureLineOf | dotnet/Devolutions.Authenticode/ZipFile.cs:331-343 | The comment is split on `'\n'`. The signature line is the trimmed line at the first index that qualifies, and none when no index does. A line that is found starts with `ZipAuthenticode`. |
| ZipEnvelope.SignatureLineAbsent | dotnet/Devolutions.Authenticode/ZipFile.cs:331-343 | There is no signature line exactly when no trimmed line of the comment starts with `ZipAuthenticode`. |
| ZipEnvelope.SignatureLineIsFirst | dotnet/Devolutions.Authenticode/ZipFile.cs:331-343 | The line found is the trimmed form of some line of the comment, and no earlier line qualifies. |
| ZipEnvelope.GetSignatureString | dotnet/Devolutions.Authenticode/ZipFile.cs:324-344 | Fails exactly when the scanner fails. Otherwise it gives the signature line of the decoded comment, or none. |
| ZipEnvelope.SignatureLineOfSingleLine | dotnet/Devolutions.Authenticode/ZipFile.cs:331-343 | A comment that is one tagged line, without a line break and with no whitespace at its end, is its own signature line. |
| ZipEnvelope.ComposeSignatureLine | dotnet/Devolutions.Authenticode/ZipFile.cs:404-410 | The line is `ZipAuthenticode=` (16 characters), then the digest, a comma at index 16 plus the digest length, then the block. |
| ZipEnvelope.SplitSignatureCommentLine | dotnet/Devolutions.Authenticode/ZipFile.cs:413-422 | Succeeds exactly when the line starts with `ZipAuthenticode=sha256:` and has at least 89 characters. The digest is the 71 characters from index 16 and the block the non-empty rest from index 88. Character 87 is not checked. |
| ZipEnvelope.ComposeOfSplit | dotnet/Devolutions.Authenticode/ZipFile.cs:413-422 | Recomposing the parts gives the line back exactly when character 87 is a comma. |
| ZipEnvelope.SplitOfCompose | dotnet/Devolutions.Authenticode/ZipFile.cs:406-422 | Splitting a composed line gives back its digest and block. |
| ZipEnvelope.Chunks | dotnet/Devolutions.Authenticode/ZipFile.cs:435-452 | The chunks concatenate to the block, and there are `ceil(n/64)` of them. Every chunk has 1 to 64 characters, and all but the last have exactly 64. |
| ZipEnvelope.ChunkLines | dotnet/Devolutions.Authenticode/ZipFile.cs:449 | Each chunk line is `# ` followed by its chunk. |
| ZipEnvelope.SaveSignatureData | dotnet/Devolutions.Authenticode/ZipFile.cs:424-457 | Fails exactly when the line cannot be split. Otherwise the text is the catalog lines, each ended by a line break: digest, begin marker, chunk lines and end marker. |
| ZipEnvelope.WriteCatalog | dotnet/Devolutions.Authenticode/ZipFile.cs:431-456 | The string-builder loop appends exactly the catalog lines. |
| ZipEnvelope.ChunkStep | dotnet/Devolutions.Authenticode/ZipFile.cs:440-452 | One pass of the chunk loop emits the next chunk line and leaves the chunk lines of the rest of the block. |
| ZipEnvelope.CollectBlock | dotnet/Devolutions.Authenticode/ZipFile.cs:380-400 | Inside the block, with no end marker ahead, the result is the text after `# ` of every chunk line, in order. Outside the block, with no begin marker ahead, nothing is collected. |
| ZipEnvelope.LoadSignatureFile | dotnet/Devolutions.Authenticode/ZipFile.cs:366-411 | Fails exactly when there are fewer than four lines. Otherwise the result is `ZipAuthenticode=`, the trimmed first line, a comma, and the block collected from the remaining lines with the block initially off. |
| ZipEnvelope.CollectSkipsPrelude | dotnet/Devolutions.Authenticode/ZipFile.cs:380-400 | Before the block, lines carrying neither marker are skipped. |
| ZipEnvelope.CollectUpToEnd | dotnet/Devolutions.Authenticode/ZipFile.cs:380-400 | Inside the block, the lines before the end marker contribute their chunk text. Nothing after the end marker is read. |
| ZipEnvelope.CollectOfLayout | dotnet/Devolutions.Authenticode/ZipFile.cs:380-400 | Prelude lines, the begin marker, block lines, the end marker and any trailer collect into the chunk text of the block lines. |
| ZipEnvelope.LoadOfLayout | dotnet/Devolutions.Authenticode/ZipFile.cs:366-411 | Such a file, behind a first line and with at least four lines in all, loads as `ZipAuthenticode=`, the trimmed first line, a comma and the chunk text between the markers. |
| ZipEnvelope.EmptyBlockRejected | dotnet/Devolutions.Authenticode/ZipFile.cs:366-374 | A three-line file, the digest and the two markers with nothing between them, is rejected with InvalidSignatureFile. |
| ZipEnvelope.LoadEmptyCatalog | dotnet/Devolutions.Authenticode/ZipFile.cs:366-411 | The four lines digest, begin marker, end marker and a blank line load as `ZipAuthenticode=<digest>,` with an empty block. |
| ZipEnvelope.EmptyBlockLineIsFound | dotnet/Devolutions.Authenticode/ZipFile.cs:413-422 | That 88-character line, alone in a comment, is found as the signature line, but splitting it fails with InvalidSignatureLine. |
| ZipEnvelope.CollectChunkLines | dotnet/Devolutions.Authenticode/ZipFile.cs:380-400 | Inside the block, chunk lines up to the end marker contribute exactly their chunks. |
| ZipEnvelope.CollectAfterBegin | dotnet/Devolutions.Authenticode/ZipFile.cs:384-389 | The begin marker switches block collection on. |
| ZipEnvelope.CatalogHasNoLineEnds | dotnet/Devolutions.Authenticode/ZipFile.cs:433-454 | With a whitespace-free digest and block, no catalog line contains a line break. |
| ZipEnvelope.LoadOfCatalog | dotnet/Devolutions.Authenticode/ZipFile.cs:366-457 | The catalog lines fold back into `ZipAuthenticode=<digest>,<block>`. This needs a whitespace-free digest and a non-empty block without `#`. |
| ZipEnvelope.LoadOfSave | dotnet/Devolutions.Authenticode/ZipFile.cs:366-457 | Reading back the text that `SaveSignatureData` writes gives the recomposed line. That equals the original line exactly when its character 87 is a comma. |
| ZipSigning.Sign | dotnet/Devolutions.Authenticode/ZipFile.cs:476-496 | A scanner failure propagates. Otherwise signing succeeds exactly when the signed file has at least four lines; the error is InvalidSignatureFile. The signed archive is the original with the comment set to the loaded line. It has the same hash and digest string as the original. Its comment reads back as that line when the line's UTF-8 encoding fits 65535 bytes and decodes back to it. |
| ZipSigning.SignStoresLine | dotnet/Devolutions.Authenticode/ZipFile.cs:476-496 | When the signer returns the catalog of the digest and a block, the signed archive is the original with its comment set to `ZipAuthenticode=<digest>,<block>`. |
| ZipSigning.GetSignature | dotnet/Devolutions.Authenticode/ZipFile.cs:498-521 | A scanner failure propagates. An archive without a signature line fails with MissingSignature, and one whose line does not split fails with InvalidSignatureLine. Success means the embedded digest equals the archive's own, and the catalog is the one rebuilt from the line's parts. The check fails with DigestMismatch exactly when a well-formed line carries a different digest. |
| ZipSigning.DigestStringHasNoWhiteSpace | dotnet/Devolutions.Authenticode/ZipFile.cs:305 | A digest string contains no whitespace. |
| ZipSigning.ComposedLineReadsBack | dotnet/Devolutions.Authenticode/ZipFile.cs:324-344 | A composed line stored as the whole comment is found as the signature line and splits back into its parts. |
| ZipSigning.SignThenGetSignature | dotnet/Devolutions.Authenticode/ZipFile.cs:476-521 | Signing followed by the check, with no other edit, passes. The check returns the signing digest, the block and the catalog. |
| ZipSigning.GetSignaturePasses | dotnet/Devolutions.Authenticode/ZipFile.cs:504-520 | A well-formed signature line whose digest equals the archive's passes the check. |
| ZipSigning.SignEmptyBlock | dotnet/Devolutions.Authenticode/ZipFile.cs:476-521 | A signer whose file has no chunk lines and a blank line after the end marker makes `Sign` store the 88-character line with an empty block. `GetSignature` on the signed archive then fails with InvalidSignatureLine. |
| ZipSigning.ChangedHashFailsCheck | dotnet/Devolutions.Authenticode/ZipFile.cs:504-518 | Keep the signature line of a passing archive but change the hashed bytes, and the check fails with DigestMismatch. |
| Text.TrimCuts | dotnet/Devolutions.Authenticode/ZipFile.cs:335 | `Trim` returns a contiguous piece of its input, with whitespace at neither end, and cuts only whitespace. |
| Text.SplitRejoins | dotnet/Devolutions.Authenticode/ZipFile.cs:331 | The pieces of `Split` contain no separator, and joining them with the separator gives the input back. |
| Text.ReadLines | dotnet/Devolutions.Authenticode/ZipFile.cs:369 | No line contains a line break. Writing the lines back, each with a line ending, gives the text, with a line ending added when the text does not already end with one. |
| Text.ReadLinesOfJoinLines | dotnet/Devolutions.Authenticode/ZipFile.cs:369 | Reading back lines written each with a line ending gives those lines, provided none contains a line break. |
| Bytes.Resize | dotnet/Devolutions.Authenticode/ZipFile.cs:280-285 | The buffer takes the new length, keeps its old bytes and pads with zeros. |
| Bytes.CopyInto | dotnet/Devolutions.Authenticode/ZipFile.cs:287 | The copy writes `count` source bytes at the offset and leaves every other byte alone. |
| SecuritySupport.GetDWORDFromInt | dotnet/Devolutions.Authenticode/SecuritySupport.cs:78-82 | The result is `n mod 2^32`. |
| SecuritySupport.GetIntFromDWORD | dotnet/Devolutions.Authenticode/SecuritySupport.cs:89-93 | The result is `d` when `d < 2^31`, and `d - 2^32` otherwise. |
| SecuritySupport.TruncateToInt32 | dotnet/Devolutions.Authenticode/SecuritySupport.cs:92 | The unchecked narrowing keeps the value modulo 2^32. |
| SecuritySupport.IntDWORDRoundTrip | dotnet/Devolutions.Authenticode/SecuritySupport.cs:78-93 | int to DWORD and back is the identity. |
| SecuritySupport.DWORDIntRoundTrip | dotnet/Devolutions.Authenticode/SecuritySupport.cs:78-93 | DWORD to int and back is the identity. |
| SecuritySupport.Succeeded | dotnet/Devolutions.Authenticode/SecuritySupport.cs:214-217 | An HRESULT succeeds exactly when the top bit of its 32-bit pattern is clear. |
| SecuritySupport.SucceededIffSeverityClear | dotnet/Devolutions.Authenticode/SecuritySupport.cs:214-217 | An HRESULT carried as a DWORD succeeds exactly when its top bit is clear. |
| SecuritySupport.CheckArgForNullOrEmpty | dotnet/Devolutions.Authenticode/SecuritySupport.cs:219-229 | Null raises ArgumentNull with the argument's name as the parameter name. `""` raises ArgumentEmpty with the name as the message, as `ArgumentException(argName)` does. The check passes exactly when the argument is present and non-empty. |
| SecuritySupport.CertHasOid | dotnet/Devolutions.Authenticode/SecuritySupport.cs:38-55 | True exactly when the first enhanced-key-usage extension lists the OID. |
| SecuritySupport.CertIsGoodForSigning | dotnet/Devolutions.Authenticode/SecuritySupport.cs:63-71 | False without a private key. Otherwise it is true exactly when the first enhanced-key-usage extension lists `1.3.6.1.5.5.7.3.3`. |
| SecuritySupport.LaterExtensionsIgnored | dotnet/Devolutions.Authenticode/SecuritySupport.cs:40-53 | Two extension lists that agree up to and including the first enhanced-key-usage extension give the same answer. |
| SecuritySupport.FirstEnhancedKeyUsageUnique | dotnet/Devolutions.Authenticode/SecuritySupport.cs:40-53 | Only one extension is the first enhanced-key-usage extension. |
| SecuritySupport.SecondEnhancedKeyUsageIgnored | dotnet/Devolutions.Authenticode/SecuritySupport.cs:51 | When the first enhanced-key-usage extension lacks code signing and a second one lists it, the certificate still does not qualify. |

## Left out

- File I/O is replaced by parameters and results:
  - `File.ReadAllBytes` and the `ZipFile(string)` constructor: the archive is a `seq<byte>` argument.
  - `File.WriteAllBytes` and `Save`: the edited buffer is the result.
  - `File.ReadAllLines`: `LoadSignatureFile` takes a sequence of lines.
  - `SaveSignatureFile`, `ExportSignatureFile` and `GetZipDigestString` only wrap the modelled operations in file I/O.
- `GetSignatureFileData` is `SaveSignatureData` of `GetSignatureString`. It appears only as the catalog returned by `ZipSigning.GetSignature`.
- SHA-256 and UTF-8 are abstract parameters. Properties that need UTF-8 to round-trip a string state that as a precondition.
- `Authenticode.SignatureHelper.SignFile` and `SignatureHelper.GetSignature` are foreign cryptographic code (ZipFile.cs:486, 513):
  - signing is the `signer` parameter, from the digest text to the lines of the signed file;
  - the Authenticode verification of the block is not modelled;
  - `GetSignature` returns the checked digest, the block and the catalog, in place of the verification result.
- ZipSigning.GetSignature: an archive without a signature line is modelled as a MissingSignature error. The code passes `null` to `SplitSignatureCommentLine` there, which throws a null-reference exception.
- `String.Trim` uses a fixed whitespace set: space, tab, line feed, vertical tab, form feed, carriage return, U+0085 and U+00A0. .NET's full Unicode set is not modelled.
- `StartsWith(string)` is culture-sensitive in .NET, and it is modelled as an ordinal prefix test. The two can disagree: the culture-sensitive test ignores characters such as the soft hyphen U+00AD, so a line `\u00ADZipAuthenticode=...` passes it but fails the ordinal test. The model does not capture culture-sensitive comparison.
- `String.ToLower` is ASCII lower-casing. It is applied only to `BitConverter.ToString` output, which is ASCII.
- `Environment.NewLine` is `"\n"`. `ReadAllLines` splits on `'\n'` only, not on `"\r\n"` or `'\r'`, and drops the empty piece after a final line ending.
- The null returns in `GetFileComment` and `SetFileComment` (ZipFile.cs:226-235, 259-265) cannot happen:
  - the scanner throws instead of returning a negative offset;
  - the signature at the offset has already been checked;
  - a `ushort` is never negative.
- ZIP64, data descriptors and multi-disk archives are not handled by the code, and not modelled.
- ZipComment.SetFileComment: the 32-bit `(int)` cast of the new file size (ZipFile.cs:280) is not modelled. Offsets are unbounded; the cast matters only for buffers over 2 GiB.
- ZipComment.GetFileComment: when the length field is 0, `Encoding.UTF8.GetString` of no bytes is `""`. The model gives `utf8.decode([])`, which equals `""` for any faithful decoder.
- `Resources.cs` only looks up resource strings.
- `CheckIfFileExists`, `GetFileSize`, `GetApplicationBase`, `NewArgumentException` and `CheckArgForNull` in `SecuritySupport.cs` are file-system access, formatting, or a null test with nothing to model.
- The PowerShell cmdlets (`ZipAuthenticodeFileHash.cs`, `DigestCommand.cs`, `ExportCommands.cs`, `PSUtils.cs`) only resolve paths and map errors.
- Certificates are modelled only by what the rule reads: private-key presence and the ordered extensions, with enhanced-key-usage OIDs as strings.

=== FILE: bytes.dfy ===
/**
  Byte-level primitives of the archive model: fixed-width unsigned integers,
  the little-endian field readers and writers that stand for the unsafe
  struct overlays of ZipFile.cs, and the two .NET array operations the comment
  editor relies on (`Array.Resize` and `Array.Copy`).
 */
module Bytes {

  type byte = x: int | 0 <= x < 0x100
  type uint16 = x: int | 0 <= x < 0x1_0000
  type uint32 = x: int | 0 <= x < 0x1_0000_0000

  /** The 16-bit little-endian field that starts at `offset`. */
  function ReadUInt16(s: seq<byte>, offset: nat): uint16
    requires offset + 2 <= |s|
  {
    s[offset] as int + 0x100 * (s[offset + 1] as int)
  }

  /** The 32-bit little-endian field that starts at `offset`. */
  function ReadUInt32(s: seq<byte>, offset: nat): uint32
    requires offset + 4 <= |s|
  {
    ReadUInt16(s, offset) + 0x1_0000 * ReadUInt16(s, offset + 2)
  }

  /** The little-endian bytes of a 16-bit value. */
  function UInt16Bytes(v: uint16): (r: seq<byte>)
    ensures |r| == 2
  {
    [v % 0x100, v / 0x100]
  }

  /** The little-endian bytes of a 32-bit value. */
  function UInt32Bytes(v: uint32): (r: seq<byte>)
    ensures |r| == 4
  {
    UInt16Bytes(v % 0x1_0000) + UInt16Bytes(v / 0x1_0000)
  }

  /** Reading a 16-bit field gives back the value its bytes were written from. */
  lemma ReadUInt16Written(s: seq<byte>, offset: nat, v: uint16)
    requires offset + 2 <= |s|
    requires s[offset..offset + 2] == UInt16Bytes(v)
    ensures ReadUInt16(s, offset) == v
  {
    assert s[offset] == s[offset..offset + 2][0];
    assert s[offset + 1] == s[offset..offset + 2][1];
  }

  /** Reading a 32-bit field gives back the value its bytes were written from. */
  lemma ReadUInt32Written(s: seq<byte>, offset: nat, v: uint32)
    requires offset + 4 <= |s|
    requires s[offset..offset + 4] == UInt32Bytes(v)
    ensures ReadUInt32(s, offset) == v
  {
    assert s[offset..offset + 2] == s[offset..offset + 4][..2];
    assert s[offset + 2..offset + 4] == s[offset..offset + 4][2..];
    ReadUInt16Written(s, offset, v % 0x1_0000);
    ReadUInt16Written(s, offset + 2, v / 0x1_0000);
  }

  /** A field read inside a slice is the field read at the same place in the whole sequence. */
  lemma FieldsInSlice(s: seq<byte>, start: nat, end: nat, at: nat)
    requires start <= end <= |s|
    ensures at + 2 <= end - start ==> ReadUInt16(s[start..end], at) == ReadUInt16(s, start + at)
    ensures at + 4 <= end - start ==> ReadUInt32(s[start..end], at) == ReadUInt32(s, start + at)
  {
  }

  /** Writing back a 16-bit field that was read reproduces its bytes. */
  lemma UInt16BytesOfRead(s: seq<byte>, offset: nat)
    requires offset + 2 <= |s|
    ensures UInt16Bytes(ReadUInt16(s, offset)) == s[offset..offset + 2]
  {
  }

  /**
    `Array.Resize(ref a, n)`: the first `min(n, |a|)` elements are kept and any
    new elements are zero.
   */
  function Resize(a: seq<byte>, n: nat): (r: seq<byte>)
    ensures |r| == n
    ensures forall i :: 0 <= i < n && i < |a| ==> r[i] == a[i]
    ensures forall i :: |a| <= i < n ==> r[i] == 0
  {
    if n <= |a| then a[..n] else a + seq(n - |a|, _ => 0)
  }

  /** `Array.Copy(src, 0, dst, offset, count)`: overwrites `count` elements of `dst`. */
  function CopyInto(src: seq<byte>, count: nat, dst: seq<byte>, offset: nat): (r: seq<byte>)
    requires count <= |src| && offset + count <= |dst|
    ensures |r| == |dst|
    ensures forall i :: 0 <= i < offset ==> r[i] == dst[i]
    ensures forall i :: 0 <= i < count ==> r[offset + i] == src[i]
    ensures forall i :: offset + count <= i < |dst| ==> r[i] == dst[i]
  {
    dst[..offset] + src[..count] + dst[offset + count..]
  }
}

=== FILE: security_support.dfy ===
/**
  The helpers of SecuritySupport.cs that the signing code relies on: the
  two's-complement conversions between `int` and `DWORD`, the HRESULT success
  test, the argument check, and the code-signing certificate rule over an
  abstract certificate (the enhanced-key-usage extension of section 4.2.1.12
  of RFC 5280, with id-kp-codeSigning).
 */
module SecuritySupport {
  import opened Wrappers
  import opened Bytes

  type int32 = x: int | -0x8000_0000 <= x < 0x8000_0000

  /** The four little-endian two's-complement bytes of `n`, as `BitConverter.GetBytes(int)` gives them. */
  function Int32Bytes(n: int32): (r: seq<byte>)
    ensures |r| == 4
  {
    UInt32Bytes(if n < 0 then n + 0x1_0000_0000 else n)
  }

  /** `GetDWORDFromInt`: the bytes of `n` read back as an unsigned 32-bit value, that is, `n` modulo 2^32. */
  function GetDWORDFromInt(n: int32): (r: uint32)
    ensures r == n % 0x1_0000_0000
    ensures n >= 0 ==> r == n
  {
    var bytes := Int32Bytes(n);
    ReadUInt32Written(bytes, 0, if n < 0 then n + 0x1_0000_0000 else n);
    ReadUInt32(bytes, 0)
  }

  /** The unchecked `(int)` cast of a 64-bit value: its low 32 bits, read as two's complement. */
  function TruncateToInt32(x: int): (r: int32)
    ensures (r - x) % 0x1_0000_0000 == 0
  {
    var low := x % 0x1_0000_0000;
    if low < 0x8000_0000 then low else low - 0x1_0000_0000
  }

  /**
    `GetIntFromDWORD`: `n - 2^32` computed in 64 bits and cast to `int`. The
    result is `n` when it is below 2^31 and `n - 2^32` otherwise.
   */
  function GetIntFromDWORD(n: uint32): (r: int32)
    ensures r == if n < 0x8000_0000 then n else n - 0x1_0000_0000
  {
    var n64 := n - 0x1_0000_0000;
    TruncateToInt32(n64)
  }

  /** From `int` to `DWORD` and back is the identity. */
  lemma IntDWORDRoundTrip(n: int32)
    ensures GetIntFromDWORD(GetDWORDFromInt(n)) == n
  {
  }

  /** From `DWORD` to `int` and back is the identity. */
  lemma DWORDIntRoundTrip(d: uint32)
    ensures GetDWORDFromInt(GetIntFromDWORD(d)) == d
  {
  }

  /**
    `Utils.Succeeded`: an HRESULT signals success when it is not negative,
    that is, when the top (severity) bit of its 32-bit pattern is clear.
   */
  predicate Succeeded(hresult: int32): (r: bool)
    ensures r <==> GetDWORDFromInt(hresult) < 0x8000_0000
  {
    hresult >= 0
  }

  /**
    An HRESULT carried as a `DWORD` succeeds exactly when its top (severity)
    bit is clear.
   */
  lemma SucceededIffSeverityClear(d: uint32)
    ensures Succeeded(GetIntFromDWORD(d)) <==> d / 0x8000_0000 == 0
  {
  }

  /**
    The two exceptions `CheckArgForNullOrEmpty` raises. `ArgumentNullException(argName)`
    takes the name as the parameter name; `ArgumentException(argName)` takes
    it as the message.
   */
  datatype ArgumentError = ArgumentNull(paramName: string) | ArgumentEmpty(message: string)

  /**
    `Utils.CheckArgForNullOrEmpty`: `null` raises an argument-null error with
    the argument's name as its parameter name, the empty string an argument
    error with the name as its message; anything else passes.
   */
  function CheckArgForNullOrEmpty(arg: Option<string>, argName: string): (r: Outcome<ArgumentError>)
    ensures r.Pass? <==> arg.Some? && |arg.value| > 0
    ensures r == Fail(ArgumentNull(argName)) <==> arg.None?
    ensures r == Fail(ArgumentEmpty(argName)) <==> arg == Some("")
  {
    if arg.None? then Fail(ArgumentNull(argName))
    else if |arg.value| == 0 then Fail(ArgumentEmpty(argName))
    else Pass
  }

  /** id-kp-codeSigning. */
  const CodeSigningOid := "1.3.6.1.5.5.7.3.3"

  /** A certificate extension: an enhanced-key-usage list of OIDs, or any other extension. */
  datatype Extension = EnhancedKeyUsage(usages: seq<string>) | OtherExtension(oid: string)

  /** What the certificate rule looks at: the private key's presence and the extensions in order. */
  datatype Certificate = Certificate(hasPrivateKey: bool, extensions: seq<Extension>)

  /** `i` is the first enhanced-key-usage extension of `extensions`. */
  ghost predicate IsFirstEnhancedKeyUsage(extensions: seq<Extension>, i: int) {
    && 0 <= i < |extensions|
    && extensions[i].EnhancedKeyUsage?
    && forall j :: 0 <= j < i ==> !extensions[j].EnhancedKeyUsage?
  }

  /** The first enhanced-key-usage extension lists `oid`. */
  ghost predicate FirstEnhancedKeyUsageLists(extensions: seq<Extension>, oid: string) {
    exists i :: IsFirstEnhancedKeyUsage(extensions, i) && oid in extensions[i].usages
  }

  /**
    `CertHasOid`: walks the extensions to the first enhanced-key-usage one and
    looks for `oid` in it; later enhanced-key-usage extensions are never
    looked at.
   */
  method CertHasOid(c: Certificate, oid: string) returns (r: bool)
    ensures r <==> FirstEnhancedKeyUsageLists(c.extensions, oid)
  {
    var k := 0;
    while k < |c.extensions|
      invariant 0 <= k <= |c.extensions|
      invariant forall j :: 0 <= j < k ==> !c.extensions[j].EnhancedKeyUsage?
    {
      if c.extensions[k].EnhancedKeyUsage? {
        var usages := c.extensions[k].usages;
        var u := 0;
        while u < |usages|
          invariant 0 <= u <= |usages|
          invariant forall v :: 0 <= v < u ==> usages[v] != oid
        {
          if usages[u] == oid {
            assert IsFirstEnhancedKeyUsage(c.extensions, k);
            return true;
          }
          u := u + 1;
        }
        assert IsFirstEnhancedKeyUsage(c.extensions, k);
        return false;
      }
      k := k + 1;
    }
    return false;
  }

  /**
    `CertIsGoodForSigning`: a certificate without a private key is never good;
    one with a key is good exactly when its first enhanced-key-usage extension
    lists id-kp-codeSigning.
   */
  method CertIsGoodForSigning(c: Certificate) returns (r: bool)
    ensures r <==> c.hasPrivateKey && FirstEnhancedKeyUsageLists(c.extensions, CodeSigningOid)
  {
    if !c.hasPrivateKey {
      return false;
    }
    r := CertHasOid(c, CodeSigningOid);
  }

  /**
    Extensions after the first enhanced-key-usage one do not matter: two
    extension lists that agree up to and including it give the same answer.
   */
  lemma LaterExtensionsIgnored(extensions: seq<Extension>, other: seq<Extension>, i: nat, oid: string)
    requires IsFirstEnhancedKeyUsage(extensions, i)
    requires i < |other| && extensions[..i + 1] == other[..i + 1]
    ensures FirstEnhancedKeyUsageLists(extensions, oid) <==> FirstEnhancedKeyUsageLists(other, oid)
  {
    assert forall j :: 0 <= j <= i ==> extensions[j] == extensions[..i + 1][j] == other[..i + 1][j] == other[j];
    assert IsFirstEnhancedKeyUsage(other, i);
    FirstEnhancedKeyUsageUnique(extensions, i);
    FirstEnhancedKeyUsageUnique(other, i);
  }

  /** There is only one first enhanced-key-usage extension. */
  lemma FirstEnhancedKeyUsageUnique(extensions: seq<Extension>, i: int)
    requires IsFirstEnhancedKeyUsage(extensions, i)
    ensures forall k :: IsFirstEnhancedKeyUsage(extensions, k) ==> k == i
  {
  }

  /**
    A certificate whose first enhanced-key-usage extension lacks
    id-kp-codeSigning is not good for signing, even when a later one lists it.
   */
  lemma SecondEnhancedKeyUsageIgnored(first: seq<string>, second: seq<string>)
    requires CodeSigningOid !in first && CodeSigningOid in second
    ensures !FirstEnhancedKeyUsageLists([EnhancedKeyUsage(first), EnhancedKeyUsage(second)], CodeSigningOid)
  {
    var extensions := [EnhancedKeyUsage(first), EnhancedKeyUsage(second)];
    assert IsFirstEnhancedKeyUsage(extensions, 0);
    FirstEnhancedKeyUsageUnique(extensions, 0);
  }
}

=== FILE: seqs.dfy ===
/** Sequence helpers shared by the archive layout and the signature envelope. */
module Seqs {
  /** The pieces written one after another. */
  function Concat<T>(pieces: seq<seq<T>>): seq<T> {
    if pieces == [] then [] else pieces[0] + Concat(pieces[1..])
  }
}

=== FILE: text.dfy ===
/**
  The .NET string operations the signature envelope is built from, over
  `string = seq<char>`: `StartsWith`, `Trim`, `Split(char)`, the text that a
  run of `StringBuilder.AppendLine` calls produces, and the line splitting of
  `File.ReadAllLines`.
 */
module Text {

  /** The whitespace characters `String.Trim` removes, restricted to a fixed set. */
  predicate IsWhiteSpace(c: char) {
    c == ' ' || c == '\t' || c == '\n' || c == '\U{000B}' || c == '\U{000C}' || c == '\r'
    || c == '\U{0085}' || c == '\U{00A0}'
  }

  /** Ordinal `s.StartsWith(prefix)`. */
  predicate StartsWith(s: string, prefix: string) {
    |prefix| <= |s| && s[..|prefix|] == prefix
  }

  /** `String.TrimStart()`: drops the leading whitespace. */
  function TrimStart(s: string): string {
    if s != [] && IsWhiteSpace(s[0]) then TrimStart(s[1..]) else s
  }

  /** `String.TrimEnd()`: drops the trailing whitespace. */
  function TrimEnd(s: string): string {
    if s != [] && IsWhiteSpace(s[|s| - 1]) then TrimEnd(s[..|s| - 1]) else s
  }

  /** `String.Trim()`: the text left when whitespace is cut from both ends. */
  function Trim(s: string): string {
    TrimEnd(TrimStart(s))
  }

  /** `TrimStart` keeps a suffix that does not start with whitespace, and cuts only whitespace. */
  lemma {:induction false} TrimStartCuts(s: string)
    ensures var r := TrimStart(s);
      && |r| <= |s| && r == s[|s| - |r|..]
      && (r == [] || !IsWhiteSpace(r[0]))
      && forall i :: 0 <= i < |s| - |r| ==> IsWhiteSpace(s[i])
    decreases |s|
  {
    if s != [] && IsWhiteSpace(s[0]) {
      TrimStartCuts(s[1..]);
      var r := TrimStart(s[1..]);
      assert s[1..][|s| - 1 - |r|..] == s[|s| - |r|..];
      forall i | 1 <= i < |s| - |r|
        ensures IsWhiteSpace(s[i])
      {
        assert s[i] == s[1..][i - 1];
      }
    }
  }

  /** `TrimEnd` keeps a prefix that does not end with whitespace, and cuts only whitespace. */
  lemma {:induction false} TrimEndCuts(s: string)
    ensures var r := TrimEnd(s);
      && |r| <= |s| && r == s[..|r|]
      && (r == [] || !IsWhiteSpace(r[|r| - 1]))
      && forall i :: |r| <= i < |s| ==> IsWhiteSpace(s[i])
    decreases |s|
  {
    if s != [] && IsWhiteSpace(s[|s| - 1]) {
      TrimEndCuts(s[..|s| - 1]);
      var r := TrimEnd(s[..|s| - 1]);
      assert s[..|s| - 1][..|r|] == s[..|r|];
      forall i | |r| <= i < |s| - 1
        ensures IsWhiteSpace(s[i])
      {
        assert s[i] == s[..|s| - 1][i];
      }
    }
  }

  /**
    `r` is the infix of `s` starting at `i`, and everything of `s` outside it is
    whitespace.
   */
  ghost predicate TrimmedAt(s: string, i: nat, r: string) {
    && i + |r| <= |s|
    && r == s[i..i + |r|]
    && (forall k :: 0 <= k < i ==> IsWhiteSpace(s[k]))
    && (forall k :: i + |r| <= k < |s| ==> IsWhiteSpace(s[k]))
  }

  /**
    `Trim` keeps an infix that neither starts nor ends with whitespace, and
    what it cuts off on either side is whitespace.
   */
  lemma TrimCuts(s: string)
    ensures var r := Trim(s);
      && (r == [] || (!IsWhiteSpace(r[0]) && !IsWhiteSpace(r[|r| - 1])))
      && exists i :: TrimmedAt(s, i, r)
  {
    var start := TrimStart(s);
    var r := TrimEnd(start);
    var i := |s| - |start|;
    TrimStartCuts(s);
    TrimEndCuts(start);
    assert r == [] || r[0] == start[0];
    assert r == s[i..i + |r|];
    forall k | i + |r| <= k < |s|
      ensures IsWhiteSpace(s[k])
    {
      assert s[k] == start[k - i];
    }
    assert TrimmedAt(s, i, r);
  }

  /** A string that neither starts nor ends with whitespace is its own trim. */
  lemma TrimUnchanged(s: string)
    requires s == [] || (!IsWhiteSpace(s[0]) && !IsWhiteSpace(s[|s| - 1]))
    ensures Trim(s) == s
  {
    assert TrimStart(s) == s;
    assert TrimEnd(s) == s;
  }

  /** The pieces of a `Split` put back together with the separator between them. */
  function Join(pieces: seq<string>, sep: char): string
    requires |pieces| >= 1
  {
    if |pieces| == 1 then pieces[0] else pieces[0] + [sep] + Join(pieces[1..], sep)
  }

  /**
    `s.Split(sep)`: the runs of `s` between separators, empty runs included;
    there is always at least one.
   */
  function Split(s: string, sep: char): (r: seq<string>)
    ensures |r| >= 1
  {
    if s == [] then [""]
    else
      var rest := Split(s[1..], sep);
      if s[0] == sep then [""] + rest else [[s[0]] + rest[0]] + rest[1..]
  }

  /** The pieces of a split hold no separator, and joining them back gives the text. */
  lemma {:induction false} SplitRejoins(s: string, sep: char)
    ensures forall i :: 0 <= i < |Split(s, sep)| ==> sep !in Split(s, sep)[i]
    ensures Join(Split(s, sep), sep) == s
    decreases |s|
  {
    if s != [] {
      var rest := Split(s[1..], sep);
      SplitRejoins(s[1..], sep);
      var r := Split(s, sep);
      if s[0] == sep {
        assert r[1..] == rest;
      } else {
        assert r[1..] == rest[1..];
        if |rest| > 1 {
          assert rest == [rest[0]] + rest[1..];
          assert Join(rest, sep) == rest[0] + [sep] + Join(rest[1..], sep);
        }
        assert [s[0]] + s[1..] == s;
      }
    }
  }

  /** Splitting at the first separator: the text before it is the first piece. */
  lemma {:induction false} SplitAtSeparator(a: string, sep: char, b: string)
    requires sep !in a
    ensures Split(a + [sep] + b, sep) == [a] + Split(b, sep)
    decreases |a|
  {
    if a == [] {
      assert a + [sep] + b == [sep] + b;
      assert ([sep] + b)[1..] == b;
    } else {
      SplitAtSeparator(a[1..], sep, b);
      assert (a + [sep] + b)[1..] == a[1..] + [sep] + b;
      assert [a[0]] + a[1..] == a;
    }
  }

  /** A string without the separator splits into itself alone. */
  lemma {:induction false} SplitWithoutSeparator(a: string, sep: char)
    requires sep !in a
    ensures Split(a, sep) == [a]
    decreases |a|
  {
    if a != [] {
      SplitWithoutSeparator(a[1..], sep);
      assert [a[0]] + a[1..] == a;
    }
  }

  /** The text `StringBuilder.AppendLine` writes for each of `lines` in turn ("\n" line ends). */
  function JoinLines(lines: seq<string>): string {
    if lines == [] then "" else lines[0] + "\n" + JoinLines(lines[1..])
  }

  /** Appending line by line is the same as writing the two halves one after the other. */
  lemma {:induction false} JoinLinesAppend(a: seq<string>, b: seq<string>)
    ensures JoinLines(a + b) == JoinLines(a) + JoinLines(b)
    decreases |a|
  {
    if a != [] {
      JoinLinesAppend(a[1..], b);
      assert (a + b)[1..] == a[1..] + b;
    } else {
      assert a + b == b;
    }
  }

  /**
    `File.ReadAllLines` over text whose lines end in "\n": the pieces between
    line ends, where a final line end does not start another line.
   */
  function ReadLines(text: string): (r: seq<string>)
    ensures forall i :: 0 <= i < |r| ==> '\n' !in r[i]
    ensures JoinLines(r) == if text == [] || text[|text| - 1] == '\n' then text else text + "\n"
  {
    var pieces := Split(text, '\n');
    SplitLinesRejoin(text);
    if pieces[|pieces| - 1] == "" then pieces[..|pieces| - 1] else pieces
  }

  /** The pieces `ReadLines` keeps have no line end, and written back as lines they give the text with its last line ended. */
  lemma SplitLinesRejoin(text: string)
    ensures var pieces := Split(text, '\n');
      var r := if pieces[|pieces| - 1] == "" then pieces[..|pieces| - 1] else pieces;
      && (forall i :: 0 <= i < |r| ==> '\n' !in r[i])
      && JoinLines(r) == if text == [] || text[|text| - 1] == '\n' then text else text + "\n"
  {
    hide Split, Join, JoinLines;
    var pieces := Split(text, '\n');
    var n := |pieces|;
    var r := if pieces[n - 1] == "" then pieces[..n - 1] else pieces;
    SplitRejoins(text, '\n');
    assert forall i :: 0 <= i < |r| ==> r[i] == pieces[i];
    if pieces[n - 1] == "" && n == 1 {
      RejoinEmptyText(pieces, '\n');
    } else if pieces[n - 1] == "" {
      RejoinEndedText(pieces, '\n');
    } else {
      RejoinUnendedText(pieces, '\n');
    }
  }

  /** The single empty piece joins to the empty text, and no lines are written for it. */
  lemma RejoinEmptyText(pieces: seq<string>, sep: char)
    requires pieces == [""]
    ensures Join(pieces, sep) == "" && JoinLines(pieces[..0]) == ""
  {
  }

  /** Pieces with an empty last piece, written as lines without it, are their joined text, which ends with a line end. */
  lemma RejoinEndedText(pieces: seq<string>, sep: char)
    requires |pieces| >= 2 && pieces[|pieces| - 1] == "" && sep == '\n'
    ensures var joined := Join(pieces, sep);
      joined != [] && joined[|joined| - 1] == '\n' && JoinLines(pieces[..|pieces| - 1]) == joined
  {
    JoinLast(pieces, sep);
    JoinLinesOfJoin(pieces[..|pieces| - 1]);
  }

  /** Pieces whose last piece is not empty and has no line end, written as lines, are their joined text with a line end added. */
  lemma RejoinUnendedText(pieces: seq<string>, sep: char)
    requires |pieces| >= 1 && pieces[|pieces| - 1] != "" && sep !in pieces[|pieces| - 1] && sep == '\n'
    ensures var joined := Join(pieces, sep);
      joined != [] && joined[|joined| - 1] != '\n' && JoinLines(pieces) == joined + "\n"
  {
    var last := pieces[|pieces| - 1];
    var joined := Join(pieces, sep);
    JoinLinesOfJoin(pieces);
    JoinEndsWithLast(pieces, sep);
    assert joined[|joined| - 1] == last[|last| - 1];
  }

  /** Joining puts the last piece at the end, after a separator when there are several. */
  lemma JoinLast(pieces: seq<string>, sep: char)
    requires |pieces| >= 2
    ensures Join(pieces, sep) == Join(pieces[..|pieces| - 1], sep) + [sep] + pieces[|pieces| - 1]
  {
    hide Join;
    var n := |pieces|;
    JoinSnoc(pieces[..n - 1], sep, pieces[n - 1]);
    assert pieces[..n - 1] + [pieces[n - 1]] == pieces;
  }

  /** A joined text ends with the last piece. */
  lemma JoinEndsWithLast(pieces: seq<string>, sep: char)
    requires |pieces| >= 1
    ensures var last := pieces[|pieces| - 1];
      var joined := Join(pieces, sep);
      |last| <= |joined| && joined[|joined| - |last|..] == last
  {
    if |pieces| >= 2 {
      JoinLast(pieces, sep);
    }
  }

  /** Writing the pieces line by line is joining them with line ends and ending the last. */
  lemma {:induction false} JoinLinesOfJoin(pieces: seq<string>)
    requires |pieces| >= 1
    ensures JoinLines(pieces) == Join(pieces, '\n') + "\n"
    decreases |pieces|
  {
    if |pieces| > 1 {
      JoinLinesOfJoin(pieces[1..]);
    }
  }

  /** Joining with one more piece puts a separator and that piece at the end. */
  lemma {:induction false} JoinSnoc(pieces: seq<string>, sep: char, last: string)
    requires |pieces| >= 1
    ensures Join(pieces + [last], sep) == Join(pieces, sep) + [sep] + last
    decreases |pieces|
  {
    assert (pieces + [last])[0] == pieces[0];
    if |pieces| > 1 {
      assert (pieces + [last])[1..] == pieces[1..] + [last];
      JoinSnoc(pieces[1..], sep, last);
    } else {
      assert (pieces + [last])[1..] == [last];
    }
  }

  /** No line of `lines` contains a line end. */
  predicate NoLineEnds(lines: seq<string>) {
    forall i :: 0 <= i < |lines| ==> '\n' !in lines[i]
  }

  /** Splitting the written lines on "\n" gives the lines and one empty remainder. */
  lemma {:induction false} SplitJoinLines(lines: seq<string>)
    requires NoLineEnds(lines)
    ensures Split(JoinLines(lines), '\n') == lines + [""]
    decreases |lines|
  {
    if lines != [] {
      SplitJoinLines(lines[1..]);
      SplitAtSeparator(lines[0], '\n', JoinLines(lines[1..]));
      assert lines[0] + "\n" + JoinLines(lines[1..]) == lines[0] + ['\n'] + JoinLines(lines[1..]);
      assert [lines[0]] + lines[1..] == lines;
    }
  }

  /** Reading back lines written with `AppendLine` yields exactly those lines. */
  lemma ReadLinesOfJoinLines(lines: seq<string>)
    requires NoLineEnds(lines)
    ensures ReadLines(JoinLines(lines)) == lines
  {
    SplitJoinLines(lines);
    assert (lines + [""])[..|lines|] == lines;
  }
}

=== FILE: wrappers.dfy ===
/**
  Failure-compatible datatypes standing in for the `null` results of ZipFile.cs and
  thrown exceptions. `Result` supports Dafny's `:-` operator.
 */
module Wrappers {

  /** A value that may be absent: the model of a nullable reference. */
  datatype Option<+T> = None | Some(value: T)

  /** Either a value or the error that the code would throw instead. */
  datatype Result<+T, +E> = Success(value: T) | Failure(error: E) {

    predicate IsFailure() {
      Failure?
    }

    function PropagateFailure<U>(): Result<U, E>
      requires Failure?
    {
      Failure(error)
    }

    function Extract(): T
      requires Success?
    {
      value
    }
  }

  /** The outcome of a check that returns nothing on success. */
  datatype Outcome<+E> = Pass | Fail(error: E)
}

=== FILE: zip_comment.dfy ===
/**
  The comment editor of ZipFile.cs: reading the archive comment that follows
  the end-of-central-directory record, and replacing it in place. UTF-8 is
  abstract: a pair of functions standing for `Encoding.UTF8.GetBytes` and
  `Encoding.UTF8.GetString`.
 */
module ZipComment {
  import opened Wrappers
  import opened Bytes
  import opened ZipRecords
  import opened ZipErrors
  import opened ZipScanner

  /** `Encoding.UTF8`: text to bytes and back. */
  datatype Utf8 = Utf8(encode: string -> seq<byte>, decode: seq<byte> -> string)

  /** The comment text a `SetFileComment` argument stands for: `null` means empty. */
  function CommentText(comment: Option<string>): string {
    if comment.Some? then comment.value else ""
  }

  /** The comment bytes after the footer at `p`, as many as its length field says. */
  function CommentBytes(data: seq<byte>, p: nat): seq<byte>
    requires IsFooterAt(data, p)
  {
    data[p + EndOfCentralDirSize..p + EndOfCentralDirSize + CommentLength(data, p)]
  }

  /**
    `GetFileComment`: the decoded comment of the archive. It fails exactly
    when the scanner fails, with the scanner's error; otherwise it decodes
    the bytes after the 22-byte footer, as many as its length field says.
   */
  function GetFileComment(utf8: Utf8, data: seq<byte>): (r: Result<string, ZipError>)
    ensures r.Success? <==> FindZipFooterOffset(data).Success?
    ensures r.Failure? ==> r.error == FindZipFooterOffset(data).error
    ensures r.Success? ==>
      var p := FindZipFooterOffset(data).value;
      r.value == utf8.decode(data[p + EndOfCentralDirSize..p + EndOfCentralDirSize + CommentLength(data, p)])
  {
    var p :- FindZipFooterOffset(data);
    Success(utf8.decode(CommentBytes(data, p)))
  }

  /** The outcome of `SetFileComment`: the comment it replaced and the edited buffer. */
  datatype CommentEdit = CommentEdit(previous: string, data: seq<byte>)

  /**
    The in-place edit of `SetFileComment` on the footer at `p`: the length
    field is set to the byte count cast to 16 bits, the buffer is resized to
    end after the full encoding, and as many bytes as the cast count are copied
    in. The buffer keeps everything before the length field, ends after the new
    comment, and, when the count fits in 16 bits, is exactly that prefix, the
    field and the comment.
   */
  function WriteComment(data: seq<byte>, p: nat, bytes: seq<byte>): (r: seq<byte>)
    requires p + EndOfCentralDirSize <= |data|
    ensures |r| == p + EndOfCentralDirSize + |bytes|
    ensures r[..p + CommentLengthOffset] == data[..p + CommentLengthOffset]
    ensures ReadUInt16(r, p + CommentLengthOffset) == |bytes| % 0x1_0000
    ensures r[p + EndOfCentralDirSize..p + EndOfCentralDirSize + |bytes| % 0x1_0000] == bytes[..|bytes| % 0x1_0000]
    ensures |bytes| <= 0xFFFF ==> r == data[..p + CommentLengthOffset] + UInt16Bytes(|bytes|) + bytes
  {
    var newCommentLength: uint16 := |bytes| % 0x1_0000;
    var fileCommentOffset := p + EndOfCentralDirSize;
    var patched := data[..p + CommentLengthOffset] + UInt16Bytes(newCommentLength) + data[fileCommentOffset..];
    var resized := Resize(patched, fileCommentOffset + |bytes|);
    var written := CopyInto(bytes, newCommentLength, resized, fileCommentOffset);
    var header := data[..p + CommentLengthOffset] + UInt16Bytes(newCommentLength);
    assert resized[..fileCommentOffset] == header by {
      assert patched[..fileCommentOffset] == header;
    }
    var tail := resized[fileCommentOffset + newCommentLength..];
    assert written == header + bytes[..newCommentLength] + tail;
    HeaderFields(data[..p + CommentLengthOffset], newCommentLength, bytes[..newCommentLength] + tail);
    assert |bytes| <= 0xFFFF ==> bytes[..newCommentLength] == bytes && tail == [];
    written
  }

  /** The fields of a buffer laid out as a prefix, a 16-bit value and the rest. */
  lemma HeaderFields(prefix: seq<byte>, v: uint16, rest: seq<byte>)
    ensures var s := prefix + UInt16Bytes(v) + rest;
      && s[..|prefix|] == prefix
      && ReadUInt16(s, |prefix|) == v
      && s[|prefix| + 2..] == rest
  {
    var s := prefix + UInt16Bytes(v) + rest;
    assert s[|prefix|..|prefix| + 2] == UInt16Bytes(v);
    ReadUInt16Written(s, |prefix|, v);
  }

  /**
    `SetFileComment`, as written: `null` stands for the empty comment, and the
    new length is cast to a 16-bit value before it is stored and before the
    bytes are copied, while the buffer is resized to the full encoded length.
    It fails exactly when the scanner fails; on success it returns the
    previous comment, `""` when its length field was 0.
   */
  function SetFileComment(utf8: Utf8, data: seq<byte>, comment: Option<string>): (r: Result<CommentEdit, ZipError>)
    ensures r.Success? <==> FindZipFooterOffset(data).Success?
    ensures r.Failure? ==> r.error == FindZipFooterOffset(data).error
    ensures r.Success? ==>
      var p := FindZipFooterOffset(data).value;
      && r.value.data == WriteComment(data, p, utf8.encode(CommentText(comment)))
      && r.value.previous == (if CommentLength(data, p) == 0 then "" else utf8.decode(CommentBytes(data, p)))
  {
    var newCommentBytes := utf8.encode(CommentText(comment));
    var p :- FindZipFooterOffset(data);
    var oldComment := if CommentLength(data, p) > 0 then utf8.decode(CommentBytes(data, p)) else "";
    Success(CommentEdit(oldComment, WriteComment(data, p, newCommentBytes)))
  }

  /**
    Whatever bytes are written, the scanner finds the footer where it was: the
    edit keeps every byte before the length field, and the new length never
    exceeds the bytes written after the footer.
   */
  lemma WriteCommentKeepsFooter(data: seq<byte>, p: nat, bytes: seq<byte>)
    requires FindZipFooterOffset(data) == Success(p)
    ensures FindZipFooterOffset(WriteComment(data, p, bytes)) == Success(p)
  {
    var edited := WriteComment(data, p, bytes);
    ReadInPrefix(edited, p + CommentLengthOffset, p);
    ReadInPrefix(data, p + CommentLengthOffset, p);
    assert IsFooterAt(edited, p);
    ScanIgnoresComment(data, edited, 0, p);
  }

  /**
    A comment that fits the 16-bit length field leaves a buffer whose footer
    is where it was, with the length field matching the bytes after it.
   */
  lemma SetFileCommentKeepsFooter(utf8: Utf8, data: seq<byte>, comment: Option<string>)
    requires FindZipFooterOffset(data).Success?
    requires |utf8.encode(CommentText(comment))| <= 0xFFFF
    ensures var edited := SetFileComment(utf8, data, comment).value.data;
      var p := FindZipFooterOffset(data).value;
      && FindZipFooterOffset(edited) == Success(p)
      && CommentLength(edited, p) == |edited| - (p + EndOfCentralDirSize)
  {
    WriteCommentKeepsFooter(data, FindZipFooterOffset(data).value, utf8.encode(CommentText(comment)));
  }

  /**
    After `SetFileComment(c)` with a comment that fits, `GetFileComment` gives
    `c` back, provided UTF-8 decodes `c`'s encoding to `c` (true of every
    well-formed string).
   */
  lemma GetFileCommentAfterSet(utf8: Utf8, data: seq<byte>, comment: Option<string>)
    requires FindZipFooterOffset(data).Success?
    requires |utf8.encode(CommentText(comment))| <= 0xFFFF
    requires utf8.decode(utf8.encode(CommentText(comment))) == CommentText(comment)
    ensures GetFileComment(utf8, SetFileComment(utf8, data, comment).value.data) == Success(CommentText(comment))
  {
    var p := FindZipFooterOffset(data).value;
    var bytes := utf8.encode(CommentText(comment));
    WriteCommentKeepsFooter(data, p, bytes);
    assert CommentBytes(WriteComment(data, p, bytes), p) == bytes;
  }

  /**
    Setting the comment twice is the same as setting it once to the second
    value, and the second call returns the first comment.
   */
  lemma SetFileCommentTwice(utf8: Utf8, data: seq<byte>, first: Option<string>, second: Option<string>)
    requires FindZipFooterOffset(data).Success?
    requires |utf8.encode(CommentText(first))| <= 0xFFFF
    requires |utf8.encode(CommentText(second))| <= 0xFFFF
    requires utf8.decode(utf8.encode(CommentText(first))) == CommentText(first)
    ensures var once := SetFileComment(utf8, data, first).value.data;
      var twice := SetFileComment(utf8, once, second);
      && twice.Success?
      && twice.value.data == SetFileComment(utf8, data, second).value.data
      && twice.value.previous == (if utf8.encode(CommentText(first)) == [] then "" else CommentText(first))
  {
    var p := FindZipFooterOffset(data).value;
    var once := WriteComment(data, p, utf8.encode(CommentText(first)));
    WriteCommentKeepsFooter(data, p, utf8.encode(CommentText(first)));
    GetFileCommentAfterSet(utf8, data, first);
    assert once[..p + CommentLengthOffset] == data[..p + CommentLengthOffset];
  }

  /**
    For a comment whose encoding does not fit in 16 bits, the buffer is
    resized to the full encoded length, but the length field keeps only the
    low 16 bits of the size and only that many bytes are copied: the footer no
    longer describes the end of the buffer, and reading the comment back gives
    the decoding of that prefix of the bytes.
   */
  lemma OversizedCommentBreaksFooter(utf8: Utf8, data: seq<byte>, comment: Option<string>)
    requires FindZipFooterOffset(data).Success?
    requires |utf8.encode(CommentText(comment))| > 0xFFFF
    ensures var edited := SetFileComment(utf8, data, comment).value.data;
      var p := FindZipFooterOffset(data).value;
      var bytes := utf8.encode(CommentText(comment));
      && FindZipFooterOffset(edited) == Success(p)
      && CommentLength(edited, p) != |edited| - (p + EndOfCentralDirSize)
      && GetFileComment(utf8, edited) == Success(utf8.decode(bytes[..|bytes| % 0x1_0000]))
  {
    var p := FindZipFooterOffset(data).value;
    var bytes := utf8.encode(CommentText(comment));
    var edited := WriteComment(data, p, bytes);
    assert SetFileComment(utf8, data, comment).value.data == edited;
    WriteCommentKeepsFooter(data, p, bytes);
    assert CommentLength(edited, p) == |bytes| % 0x1_0000;
    assert CommentBytes(edited, p) == bytes[..|bytes| % 0x1_0000];
    assert GetFileComment(utf8, edited) == Success(utf8.decode(CommentBytes(edited, p)));
    hide *;
  }
}

=== FILE: zip_digest.dfy ===
/**
  The canonical digest of an archive (`ComputeHash` and `GetDigestString` in
  ZipFile.cs): SHA-256 over every byte up to the end of the fixed part of the
  end-of-central-directory record, with the 2-byte comment-length field set to
  zero, so that the digest does not depend on the comment that will carry the
  signature. The string form is an OCI image-spec v1.0.1 digest: `sha256:`
  followed by 64 lower-case hexadecimal digits. SHA-256 itself is a parameter.
 */
module ZipDigest {
  import opened Wrappers
  import opened Bytes
  import opened ZipRecords
  import opened ZipErrors
  import opened ZipScanner
  import opened ZipComment

  /** The 32 bytes of a SHA-256 result. */
  type Sha256Digest = s: seq<byte> | |s| == 32 witness seq(32, _ => 0)

  /** `SHA256.ComputeHash`, left abstract. */
  type Sha256 = seq<byte> -> Sha256Digest

  /**
    The bytes that are hashed for the footer at `p`: the buffer up to the end
    of the footer's fixed part, with the comment-length field zeroed.
   */
  function CanonicalInput(data: seq<byte>, p: nat): (r: seq<byte>)
    requires p + EndOfCentralDirSize <= |data|
    ensures |r| == p + EndOfCentralDirSize
    ensures r[..p + CommentLengthOffset] == data[..p + CommentLengthOffset]
    ensures r[p + CommentLengthOffset] == 0 && r[p + CommentLengthOffset + 1] == 0
  {
    var offset := p + EndOfCentralDirSize;
    var tbsData := data[..offset];
    assert tbsData[offset - 1 := 0][offset - 2 := 0][..p + CommentLengthOffset] == data[..p + CommentLengthOffset];
    tbsData[offset - 1 := 0][offset - 2 := 0]
  }

  /**
    Two buffers with the footer at the same place have the same canonical
    input exactly when they agree on every byte before the comment-length
    field: the digest covers all of those bytes and nothing after them.
   */
  lemma CanonicalInputSameIff(data: seq<byte>, other: seq<byte>, p: nat)
    requires p + EndOfCentralDirSize <= |data| && p + EndOfCentralDirSize <= |other|
    ensures CanonicalInput(data, p) == CanonicalInput(other, p)
      <==> data[..p + CommentLengthOffset] == other[..p + CommentLengthOffset]
  {
    var a, b := CanonicalInput(data, p), CanonicalInput(other, p);
    if data[..p + CommentLengthOffset] == other[..p + CommentLengthOffset] {
      assert a == a[..p + CommentLengthOffset] + a[p + CommentLengthOffset..];
      assert b == b[..p + CommentLengthOffset] + b[p + CommentLengthOffset..];
      assert a[p + CommentLengthOffset..] == [0, 0] == b[p + CommentLengthOffset..];
    }
  }

  /**
    `ComputeHash`: the SHA-256 of the canonical input at the footer the
    scanner finds, that is of the archive up to the end of the fixed footer
    fields with the comment-length field read as zero; fails exactly when
    the scanner fails, and with its error.
   */
  function ComputeHash(sha256: Sha256, data: seq<byte>): (r: Result<Sha256Digest, ZipError>)
    ensures r.Success? <==> FindZipFooterOffset(data).Success?
    ensures r.Failure? ==> r.error == FindZipFooterOffset(data).error
    ensures r.Success? ==> r.value == sha256(CanonicalInput(data, FindZipFooterOffset(data).value))
  {
    var p :- FindZipFooterOffset(data);
    Success(sha256(CanonicalInput(data, p)))
  }

  // Hexadecimal text, as `BitConverter.ToString`, `Replace("-", "")` and `ToLower` produce it.

  function UpperHexDigit(v: nat): char
    requires v < 16
  {
    if v < 10 then ('0' as int + v) as char else ('A' as int + v - 10) as char
  }

  function LowerHexDigit(v: nat): char
    requires v < 16
  {
    if v < 10 then ('0' as int + v) as char else ('a' as int + v - 10) as char
  }

  /** `BitConverter.ToString`: two upper-case digits per byte, separated by dashes. */
  function BitConverterToString(bytes: seq<byte>): string {
    if |bytes| == 0 then ""
    else if |bytes| == 1 then [UpperHexDigit(bytes[0] / 16), UpperHexDigit(bytes[0] % 16)]
    else [UpperHexDigit(bytes[0] / 16), UpperHexDigit(bytes[0] % 16), '-'] + BitConverterToString(bytes[1..])
  }

  /** `Replace("-", string.Empty)`. */
  function RemoveDashes(s: string): (r: string)
    ensures forall i :: 0 <= i < |r| ==> r[i] != '-'
  {
    if s == [] then [] else (if s[0] == '-' then [] else [s[0]]) + RemoveDashes(s[1..])
  }

  /** `ToLower`, on the characters it can meet here: ASCII upper-case letters become lower-case. */
  function ToLower(s: string): string {
    if s == [] then [] else [if 'A' <= s[0] <= 'Z' then (s[0] as int + 32) as char else s[0]] + ToLower(s[1..])
  }

  /** A lower-case hexadecimal digit. */
  predicate IsLowerHexDigit(c: char) {
    '0' <= c <= '9' || 'a' <= c <= 'f'
  }

  /** Reference definition: two lower-case hexadecimal digits per byte, high nibble first. */
  function LowerHex(bytes: seq<byte>): (r: string)
    ensures |r| == 2 * |bytes|
    ensures forall k :: 0 <= k < |r| ==> IsLowerHexDigit(r[k])
  {
    if bytes == [] then "" else [LowerHexDigit(bytes[0] / 16), LowerHexDigit(bytes[0] % 16)] + LowerHex(bytes[1..])
  }

  lemma {:induction false} RemoveDashesAppend(a: string, b: string)
    ensures RemoveDashes(a + b) == RemoveDashes(a) + RemoveDashes(b)
    decreases |a|
  {
    if a != [] {
      assert (a + b)[1..] == a[1..] + b;
      RemoveDashesAppend(a[1..], b);
    } else {
      assert a + b == b;
    }
  }

  lemma {:induction false} ToLowerAppend(a: string, b: string)
    ensures ToLower(a + b) == ToLower(a) + ToLower(b)
    decreases |a|
  {
    if a != [] {
      assert (a + b)[1..] == a[1..] + b;
      ToLowerAppend(a[1..], b);
    } else {
      assert a + b == b;
    }
  }

  /** The two digits of one byte survive dash removal and lower-casing as its lower-case digits. */
  lemma ByteDigits(b: byte)
    ensures ToLower(RemoveDashes([UpperHexDigit(b / 16), UpperHexDigit(b % 16)]))
      == [LowerHexDigit(b / 16), LowerHexDigit(b % 16)]
  {
    var s := [UpperHexDigit(b / 16), UpperHexDigit(b % 16)];
    assert s == [s[0]] + [s[1]];
    RemoveDashesAppend([s[0]], [s[1]]);
    assert RemoveDashes(s) == s;
    ToLowerAppend([s[0]], [s[1]]);
  }

  /**
    `BitConverter.ToString(h).Replace("-", "").ToLower()` is the lower-case
    hexadecimal text of `h`.
   */
  lemma {:induction false} FormatIsLowerHex(bytes: seq<byte>)
    ensures ToLower(RemoveDashes(BitConverterToString(bytes))) == LowerHex(bytes)
    decreases |bytes|
  {
    if |bytes| == 1 {
      ByteDigits(bytes[0]);
      assert bytes[1..] == [];
    } else if |bytes| > 1 {
      var b := bytes[0];
      var digits := [UpperHexDigit(b / 16), UpperHexDigit(b % 16)];
      var rest := BitConverterToString(bytes[1..]);
      assert BitConverterToString(bytes) == digits + ("-" + rest);
      RemoveDashesAppend("-", rest);
      assert RemoveDashes("-") == [] by { assert "-"[1..] == []; }
      assert RemoveDashes("-" + rest) == RemoveDashes(rest);
      RemoveDashesAppend(digits, "-" + rest);
      ToLowerAppend(RemoveDashes(digits), RemoveDashes(rest));
      ByteDigits(b);
      FormatIsLowerHex(bytes[1..]);
      calc {
        ToLower(RemoveDashes(BitConverterToString(bytes)));
        ToLower(RemoveDashes(digits) + RemoveDashes(rest));
        ToLower(RemoveDashes(digits)) + ToLower(RemoveDashes(rest));
        [LowerHexDigit(b / 16), LowerHexDigit(b % 16)] + LowerHex(bytes[1..]);
      }
      assert LowerHex(bytes) == [LowerHexDigit(b / 16), LowerHexDigit(b % 16)] + LowerHex(bytes[1..]);
    }
  }

  /** The value of a lower-case hexadecimal digit. */
  function HexValue(c: char): Option<nat> {
    if '0' <= c <= '9' then Some(c as int - '0' as int)
    else if 'a' <= c <= 'f' then Some(c as int - 'a' as int + 10)
    else None
  }

  /** Reads lower-case hexadecimal text back into bytes. */
  function ParseLowerHex(s: string): Option<seq<byte>> {
    if |s| == 0 then Some([])
    else if |s| == 1 then None
    else
      match (HexValue(s[0]), HexValue(s[1]), ParseLowerHex(s[2..]))
      case (Some(hi), Some(lo), Some(rest)) => Some([16 * hi + lo] + rest)
      case _ => None
  }

  /** Lower-case hexadecimal text reads back as the bytes it was made from. */
  lemma {:induction false} ParseLowerHexOfLowerHex(bytes: seq<byte>)
    ensures ParseLowerHex(LowerHex(bytes)) == Some(bytes)
    decreases |bytes|
  {
    if bytes != [] {
      var s := LowerHex(bytes);
      assert s[2..] == LowerHex(bytes[1..]);
      assert HexValue(s[0]) == Some(bytes[0] / 16);
      assert HexValue(s[1]) == Some(bytes[0] % 16);
      ParseLowerHexOfLowerHex(bytes[1..]);
      assert ParseLowerHex(s) == Some([16 * (bytes[0] / 16) + bytes[0] % 16] + bytes[1..]);
      assert [16 * (bytes[0] / 16) + bytes[0] % 16] + bytes[1..] == bytes;
    }
  }

  const DigestPrefix := "sha256:"

  /** The OCI digest string of a SHA-256 result. */
  function DigestString(hash: Sha256Digest): (r: string)
    ensures |r| == 71
    ensures r[..7] == DigestPrefix && ParseLowerHex(r[7..]) == Some(hash)
    ensures forall k :: 7 <= k < |r| ==> IsLowerHexDigit(r[k])
  {
    FormatIsLowerHex(hash);
    ParseLowerHexOfLowerHex(hash);
    var r := DigestPrefix + ToLower(RemoveDashes(BitConverterToString(hash)));
    assert r[7..] == LowerHex(hash);
    assert forall k :: 7 <= k < |r| ==> r[k] == LowerHex(hash)[k - 7];
    r
  }

  /** Different hashes give different digest strings, and equal hashes equal ones. */
  lemma DigestStringSameIff(h1: Sha256Digest, h2: Sha256Digest)
    ensures DigestString(h1) == DigestString(h2) <==> h1 == h2
  {
    if DigestString(h1) == DigestString(h2) {
      assert DigestString(h1)[7..] == DigestString(h2)[7..];
    }
  }

  /**
    `GetDigestString`: `sha256:` and the lower-case hexadecimal text of the hash
    of the canonical input, 71 characters in all.
   */
  function GetDigestString(sha256: Sha256, data: seq<byte>): (r: Result<string, ZipError>)
    ensures r.Success? <==> FindZipFooterOffset(data).Success?
    ensures r.Failure? ==> r.error == FindZipFooterOffset(data).error
    ensures r.Success? ==> |r.value| == 71 && r.value[..7] == DigestPrefix
    ensures r.Success? ==> forall k :: 7 <= k < |r.value| ==> IsLowerHexDigit(r.value[k])
  {
    var p :- FindZipFooterOffset(data);
    Success(DigestString(sha256(CanonicalInput(data, p))))
  }

  /** `GetDigestString` is the digest string of exactly the hash `ComputeHash` returns. */
  lemma DigestStringOfComputeHash(sha256: Sha256, data: seq<byte>)
    ensures GetDigestString(sha256, data).Success? <==> ComputeHash(sha256, data).Success?
    ensures ComputeHash(sha256, data).Success? ==>
      var d := GetDigestString(sha256, data).value;
      && d[7..] == LowerHex(ComputeHash(sha256, data).value)
      && ParseLowerHex(d[7..]) == Some(ComputeHash(sha256, data).value)
  {
    if ComputeHash(sha256, data).Success? {
      var hash := ComputeHash(sha256, data).value;
      FormatIsLowerHex(hash);
      assert GetDigestString(sha256, data).value[7..] == ToLower(RemoveDashes(BitConverterToString(hash)));
    }
  }

  /**
    Rewriting the comment, with any text at all, changes neither the hash nor
    the digest string: the edit keeps every byte before the comment-length
    field, and the footer stays where it was.
   */
  lemma SetFileCommentKeepsDigest(sha256: Sha256, utf8: Utf8, data: seq<byte>, comment: Option<string>)
    requires FindZipFooterOffset(data).Success?
    ensures var edited := SetFileComment(utf8, data, comment).value.data;
      && ComputeHash(sha256, edited) == ComputeHash(sha256, data)
      && GetDigestString(sha256, edited) == GetDigestString(sha256, data)
  {
    var p := FindZipFooterOffset(data).value;
    var edited := SetFileComment(utf8, data, comment).value.data;
    WriteCommentKeepsFooter(data, p, utf8.encode(CommentText(comment)));
    CanonicalInputSameIff(data, edited, p);
  }
}

=== FILE: zip_envelope.dfy ===
/**
  The signature envelope of ZipFile.cs. The archive comment carries one line
  `ZipAuthenticode=<digest>,<block>`, where `<digest>` is the 71-character
  digest string and `<block>` the base64 PowerShell signature block. The line
  is stored outside the archive as a signature catalog: the digest, a begin
  marker, the block in `# `-prefixed chunks of 64 characters, and an end
  marker. This module finds the line in a comment, slices it, expands it into
  a catalog and folds a catalog back into a line.
 */
module ZipEnvelope {
  import opened Wrappers
  import opened Bytes
  import opened Text
  import opened ZipErrors
  import opened ZipScanner
  import opened ZipComment
  import opened ZipDigest
  import opened Seqs

  const SignatureTag := "ZipAuthenticode"
  /** The tag and `=`: the digest starts right after it, at index 16. */
  const SignatureKey := "ZipAuthenticode="
  /** The prefix `SplitSignatureCommentLine` insists on. */
  const SignaturePrefix := "ZipAuthenticode=sha256:"
  /** The shortest line `SplitSignatureCommentLine` accepts: key, digest, separator and one block character. */
  const MinimumLineLength := 89
  const DigestLength := 71

  const BeginMarker := "# SIG # Begin signature block"
  const EndMarker := "# SIG # End signature block"
  const LinePrefix := "# "
  const ChunkSize := 64

  /** No character of `s` is whitespace. */
  predicate NoWhiteSpace(s: string) {
    forall k :: 0 <= k < |s| ==> !IsWhiteSpace(s[k])
  }

  // Locating the signature line.

  /**
    The first index from `from` on whose trimmed line starts with
    `ZipAuthenticode`, if any.
   */
  function FirstSignatureLine(lines: seq<string>, from: nat): (r: Option<nat>)
    requires from <= |lines|
    ensures r.Some? ==> from <= r.value < |lines| && StartsWith(Trim(lines[r.value]), SignatureTag)
    ensures r.Some? ==> forall j :: from <= j < r.value ==> !StartsWith(Trim(lines[j]), SignatureTag)
    ensures r.None? <==> forall j :: from <= j < |lines| ==> !StartsWith(Trim(lines[j]), SignatureTag)
    decreases |lines| - from
  {
    if from == |lines| then None
    else if StartsWith(Trim(lines[from]), SignatureTag) then Some(from)
    else FirstSignatureLine(lines, from + 1)
  }

  /**
    The signature line of a comment: its lines split on `'\n'` and trimmed,
    the first that starts with `ZipAuthenticode`; `None` if there is none.
   */
  function SignatureLineOf(comment: string): (r: Option<string>)
    ensures var lines := Split(comment, '\n');
      r.None? <==> FirstSignatureLine(lines, 0).None?
    ensures var lines := Split(comment, '\n');
      r.Some? ==> FirstSignatureLine(lines, 0).Some? && r.value == Trim(lines[FirstSignatureLine(lines, 0).value])
    ensures r.Some? ==> StartsWith(r.value, SignatureTag)
  {
    var lines := Split(comment, '\n');
    match FirstSignatureLine(lines, 0)
    case Some(i) => Some(Trim(lines[i]))
    case None => None
  }

  /** A comment has no signature line exactly when none of its trimmed lines starts with the tag. */
  lemma SignatureLineAbsent(comment: string)
    ensures var lines := Split(comment, '\n');
      SignatureLineOf(comment).None? <==> forall j :: 0 <= j < |lines| ==> !StartsWith(Trim(lines[j]), SignatureTag)
  {
    var lines := Split(comment, '\n');
    var first := FirstSignatureLine(lines, 0);
    if first.Some? {
      var i := first.value;
      assert StartsWith(Trim(lines[i]), SignatureTag);
      assert !(forall j :: 0 <= j < |lines| ==> !StartsWith(Trim(lines[j]), SignatureTag));
      assert lines == Split(comment, '\n');
    }
  }

  /** The signature line found is the first line of the comment that qualifies, trimmed. */
  lemma SignatureLineIsFirst(comment: string)
    requires SignatureLineOf(comment).Some?
    ensures var lines := Split(comment, '\n');
      exists i :: 0 <= i < |lines| && SignatureLineOf(comment).value == Trim(lines[i])
        && forall j :: 0 <= j < i ==> !StartsWith(Trim(lines[j]), SignatureTag)
  {
    var lines := Split(comment, '\n');
    var line := SignatureLineOf(comment).value;
    var i := FirstSignatureLine(lines, 0).value;
    assert 0 <= i < |lines| && line == Trim(lines[i]);
    assert forall j :: 0 <= j < i ==> !StartsWith(Trim(lines[j]), SignatureTag);
    assert lines == Split(comment, '\n');
  }

  /**
    `GetSignatureString`: the signature line of the archive comment. It fails
    exactly when the scanner fails; an archive whose comment has no signature
    line gives `None`.
   */
  function GetSignatureString(utf8: Utf8, data: seq<byte>): (r: Result<Option<string>, ZipError>)
    ensures r.Success? <==> FindZipFooterOffset(data).Success?
    ensures r.Failure? ==> r.error == FindZipFooterOffset(data).error
    ensures r.Success? ==> r.value == SignatureLineOf(GetFileComment(utf8, data).value)
  {
    var comment :- GetFileComment(utf8, data);
    Success(SignatureLineOf(comment))
  }

  /** A comment made of one untrimmable signature line gives that line back. */
  lemma SignatureLineOfSingleLine(line: string)
    requires '\n' !in line
    requires StartsWith(line, SignatureTag)
    requires !IsWhiteSpace(line[|line| - 1])
    ensures SignatureLineOf(line) == Some(line)
  {
    SplitWithoutSeparator(line, '\n');
    TrimUnchanged(line);
  }

  // Slicing the signature line.

  /** The two parts of a signature line. */
  datatype SignatureParts = SignatureParts(digest: string, block: string)

  /** The line `LoadSignatureFile` builds from a digest and a block. */
  function ComposeSignatureLine(digest: string, block: string): (r: string)
    ensures |r| == |SignatureKey| + |digest| + 1 + |block|
    ensures StartsWith(r, SignatureKey)
    ensures r[16..16 + |digest|] == digest && r[16 + |digest|] == ','
    ensures r[17 + |digest|..] == block
  {
    SignatureKey + digest + "," + block
  }

  /**
    `SplitSignatureCommentLine`: a line that starts with
    `ZipAuthenticode=sha256:` and has at least 89 characters is cut at fixed
    positions into the 71-character digest after the key and the block after
    the separator; any other line is rejected. The separator character itself
    is not looked at.
   */
  function SplitSignatureCommentLine(line: string): (r: Result<SignatureParts, ZipError>)
    ensures r.Success? <==> StartsWith(line, SignaturePrefix) && |line| >= MinimumLineLength
    ensures r.Failure? ==> r.error == InvalidSignatureLine
    ensures r.Success? ==>
      && |r.value.digest| == DigestLength
      && StartsWith(r.value.digest, DigestPrefix)
      && |r.value.block| >= 1
      && line == SignatureKey + r.value.digest + [line[DigestLength + 16]] + r.value.block
  {
    if !StartsWith(line, SignaturePrefix) || |line| < MinimumLineLength then
      Failure(InvalidSignatureLine)
    else
      var parts := SignatureParts(line[16..16 + DigestLength], line[88..]);
      assert line[..16] == SignaturePrefix[..16];
      assert parts.digest[..7] == line[16..23];
      assert line == line[..16] + parts.digest + [line[87]] + parts.block;
      Success(parts)
  }

  /** A split line is recomposed into itself exactly when its separator is a comma. */
  lemma ComposeOfSplit(line: string)
    requires SplitSignatureCommentLine(line).Success?
    ensures var parts := SplitSignatureCommentLine(line).value;
      ComposeSignatureLine(parts.digest, parts.block) == line <==> line[87] == ','
  {
    var parts := SplitSignatureCommentLine(line).value;
    var composed := ComposeSignatureLine(parts.digest, parts.block);
    if composed == line {
      assert composed[87] == ',';
    }
  }

  /** Composing a well-formed digest with a non-empty block splits back into the two. */
  lemma SplitOfCompose(digest: string, block: string)
    requires |digest| == DigestLength && StartsWith(digest, DigestPrefix)
    requires |block| >= 1
    ensures SplitSignatureCommentLine(ComposeSignatureLine(digest, block)) == Success(SignatureParts(digest, block))
  {
    var line := ComposeSignatureLine(digest, block);
    assert line[..23] == SignatureKey + digest[..7];
    assert line[16..87] == digest;
    assert line[88..] == block;
  }

  // The signature catalog.

  /**
    The block cut into chunks: every chunk but the last has exactly 64
    characters, the last has 1 to 64, and together they are the block.
   */
  function Chunks(block: string): (r: seq<string>)
    ensures Concat(r) == block
    ensures |r| == (|block| + ChunkSize - 1) / ChunkSize
    ensures forall i :: 0 <= i < |r| ==> 1 <= |r[i]| <= ChunkSize
    ensures forall i :: 0 <= i < |r| - 1 ==> |r[i]| == ChunkSize
    decreases |block|
  {
    if block == [] then []
    else
      var chunk := if |block| < ChunkSize then |block| else ChunkSize;
      var rest := Chunks(block[chunk..]);
      var r := [block[..chunk]] + rest;
      assert r[1..] == rest;
      assert block == block[..chunk] + block[chunk..];
      r
  }

  /** A character missing from the block is missing from every chunk. */
  lemma {:induction false} ChunksAvoid(block: string, c: char)
    requires c !in block
    ensures forall i :: 0 <= i < |Chunks(block)| ==> c !in Chunks(block)[i]
    decreases |block|
  {
    if block != [] {
      var chunk := if |block| < ChunkSize then |block| else ChunkSize;
      ChunksAvoid(block[chunk..], c);
      assert forall k :: 0 <= k < chunk ==> block[..chunk][k] == block[k];
      assert Chunks(block) == [block[..chunk]] + Chunks(block[chunk..]);
    }
  }

  /** Each chunk as a catalog line: `# ` and the chunk. */
  function ChunkLines(chunks: seq<string>): (r: seq<string>)
    ensures |r| == |chunks|
    ensures forall i :: 0 <= i < |r| ==> r[i] == LinePrefix + chunks[i]
  {
    if chunks == [] then [] else [LinePrefix + chunks[0]] + ChunkLines(chunks[1..])
  }

  /** The lines of the catalog `SaveSignatureData` writes for a split signature line. */
  function CatalogLines(parts: SignatureParts): seq<string> {
    [parts.digest, BeginMarker] + ChunkLines(Chunks(parts.block)) + [EndMarker]
  }

  /**
    `SaveSignatureData`, with its chunking loop: the catalog text of the
    line's parts, one `AppendLine` ("\n") per catalog line. A line that does
    not split is rejected.
   */
  method SaveSignatureData(line: string) returns (r: Result<string, ZipError>)
    ensures r.Success? <==> SplitSignatureCommentLine(line).Success?
    ensures r.Failure? ==> r.error == InvalidSignatureLine
    ensures r.Success? ==> r.value == JoinLines(CatalogLines(SplitSignatureCommentLine(line).value))
  {
    var parts :- SplitSignatureCommentLine(line);
    var text := WriteCatalog(parts.digest, parts.block);
    return Success(text);
  }

  /** The chunking loop of `SaveSignatureData`: the catalog text of a digest and a block. */
  method WriteCatalog(digest: string, block: string) returns (sb: string)
    ensures sb == JoinLines(CatalogLines(SignatureParts(digest, block)))
  {
    CatalogLinesOf(digest, block);
    hide JoinLines, Chunks, ChunkLines, CatalogLines;
    var head := [digest, BeginMarker];
    var all := head + ChunkLines(Chunks(block));
    sb := JoinLines(head);
    var index := 0;
    var length := |block|;
    JoinLinesAppend(head, ChunkLines(Chunks(block)));
    while index < length
      invariant 0 <= index <= length
      invariant sb + JoinLines(ChunkLines(Chunks(block[index..]))) == JoinLines(all)
      decreases length - index
    {
      var chunk := ChunkSize;
      if length < index + ChunkSize {
        chunk := length - index;
      }
      var next := LinePrefix + block[index..index + chunk] + "\n";
      var rest := JoinLines(ChunkLines(Chunks(block[index + chunk..])));
      ChunkStep(block, index, chunk);
      assert (sb + next) + rest == sb + (next + rest);
      sb := sb + next;
      index := index + chunk;
    }
    CatalogEnd(all, block);
    sb := sb + (EndMarker + "\n");
  }

  /** The catalog lines, spelled out. */
  lemma CatalogLinesOf(digest: string, block: string)
    ensures CatalogLines(SignatureParts(digest, block)) == [digest, BeginMarker] + ChunkLines(Chunks(block)) + [EndMarker]
  {
  }

  /** One turn of the chunking loop writes the next chunk line. */
  lemma ChunkStep(block: string, index: nat, chunk: nat)
    requires index < |block|
    requires chunk == if |block| < index + ChunkSize then |block| - index else ChunkSize
    ensures JoinLines(ChunkLines(Chunks(block[index..])))
      == LinePrefix + block[index..index + chunk] + "\n" + JoinLines(ChunkLines(Chunks(block[index + chunk..])))
  {
    var piece := block[index..index + chunk];
    assert block[index..][..chunk] == piece;
    assert block[index..][chunk..] == block[index + chunk..];
    var rest := ChunkLines(Chunks(block[index + chunk..]));
    assert ChunkLines(Chunks(block[index..])) == [LinePrefix + piece] + rest;
    assert ([LinePrefix + piece] + rest)[1..] == rest;
  }

  /** After the last chunk, the end marker line completes the catalog. */
  lemma CatalogEnd(lines: seq<string>, block: string)
    ensures JoinLines(ChunkLines(Chunks(block[|block|..]))) == ""
    ensures JoinLines(lines) + (EndMarker + "\n") == JoinLines(lines + [EndMarker])
  {
    assert block[|block|..] == [];
    JoinLinesAppend(lines, [EndMarker]);
    assert JoinLines([EndMarker]) == EndMarker + "\n";
  }

  /** A line that carries block text: `# `-prefixed and neither marker. */
  predicate IsChunkLine(line: string) {
    StartsWith(line, LinePrefix) && !StartsWith(line, BeginMarker) && !StartsWith(line, EndMarker)
  }

  /** The text after `# ` of every chunk line of `lines`, in order. */
  function ChunkText(lines: seq<string>): string {
    if lines == [] then ""
    else (if IsChunkLine(lines[0]) then lines[0][2..] else "") + ChunkText(lines[1..])
  }

  /** No line of `lines` starts with `marker`. */
  predicate NoMarker(lines: seq<string>, marker: string) {
    forall i :: 0 <= i < |lines| ==> !StartsWith(lines[i], marker)
  }

  /**
    The block lines of a catalog, after the first line: a `# ` line turns the
    block on at the begin marker and ends the scan at the end marker; inside
    the block, every other `# ` line contributes the text after its `# `;
    all other lines are skipped. Inside the block and with no end marker to
    come, that is the chunk text of all the lines; outside the block and with
    no begin marker to come, nothing is collected.
   */
  function CollectBlock(lines: seq<string>, inSigBlock: bool): (r: string)
    ensures inSigBlock && NoMarker(lines, EndMarker) ==> r == ChunkText(lines)
    ensures !inSigBlock && NoMarker(lines, BeginMarker) ==> r == ""
  {
    if lines == [] then ""
    else
      var line := lines[0];
      assert NoMarker(lines, EndMarker) ==> NoMarker(lines[1..], EndMarker);
      assert NoMarker(lines, BeginMarker) ==> NoMarker(lines[1..], BeginMarker);
      if StartsWith(line, LinePrefix) then
        if StartsWith(line, BeginMarker) then CollectBlock(lines[1..], true)
        else if StartsWith(line, EndMarker) then ""
        else if inSigBlock then line[2..] + CollectBlock(lines[1..], inSigBlock)
        else CollectBlock(lines[1..], inSigBlock)
      else CollectBlock(lines[1..], inSigBlock)
  }

  /**
    The line processing of `LoadSignatureFile`: fewer than four lines are
    rejected; otherwise the result is the signature key, the trimmed first
    line as the digest, a comma and the block collected from the other lines.
   */
  function LoadSignatureFile(lines: seq<string>): (r: Result<string, ZipError>)
    ensures r.Success? <==> |lines| >= 4
    ensures r.Failure? ==> r.error == InvalidSignatureFile
    ensures r.Success? ==> StartsWith(r.value, SignatureKey) && StartsWith(r.value[16..], Trim(lines[0]))
    ensures r.Success? ==> r.value == ComposeSignatureLine(Trim(lines[0]), CollectBlock(lines[1..], false))
  {
    if |lines| < 4 then Failure(InvalidSignatureFile)
    else
      var digest := Trim(lines[0]);
      var block := CollectBlock(lines[1..], false);
      var line := ComposeSignatureLine(digest, block);
      assert line[..16] == SignatureKey;
      assert line[16..][..|digest|] == digest;
      Success(line)
  }

  /** A line that starts with a marker starts with `# `. */
  lemma MarkerIsPrefixed(line: string, marker: string)
    requires marker == BeginMarker || marker == EndMarker
    requires StartsWith(line, marker)
    ensures StartsWith(line, LinePrefix)
  {
    assert line[..2] == line[..|marker|][..2];
  }

  /** Outside the block, lines without a begin or an end marker are skipped. */
  lemma {:induction false} CollectSkipsPrelude(pre: seq<string>, rest: seq<string>)
    requires NoMarker(pre, BeginMarker) && NoMarker(pre, EndMarker)
    ensures CollectBlock(pre + rest, false) == CollectBlock(rest, false)
    decreases |pre|
  {
    if pre != [] {
      assert (pre + rest)[0] == pre[0];
      assert (pre + rest)[1..] == pre[1..] + rest;
      assert NoMarker(pre[1..], BeginMarker) && NoMarker(pre[1..], EndMarker) by {
        assert forall i :: 0 <= i < |pre| - 1 ==> pre[1..][i] == pre[i + 1];
      }
      assert !StartsWith(pre[0], BeginMarker) && !StartsWith(pre[0], EndMarker);
      assert CollectBlock(pre + rest, false) == CollectBlock(pre[1..] + rest, false);
      CollectSkipsPrelude(pre[1..], rest);
    } else {
      assert pre + rest == rest;
    }
  }

  /** Inside the block, the lines up to the end marker collect into their chunk text. */
  lemma {:induction false} CollectUpToEnd(mid: seq<string>, post: seq<string>)
    requires NoMarker(mid, EndMarker)
    ensures CollectBlock(mid + [EndMarker] + post, true) == ChunkText(mid)
    decreases |mid|
  {
    var lines := mid + [EndMarker] + post;
    if mid == [] {
      assert lines[0] == EndMarker;
      MarkerIsPrefixed(EndMarker, EndMarker);
      assert !StartsWith(EndMarker, BeginMarker);
    } else {
      assert lines[0] == mid[0];
      assert lines[1..] == mid[1..] + [EndMarker] + post;
      assert NoMarker(mid[1..], EndMarker) by {
        assert forall i :: 0 <= i < |mid| - 1 ==> mid[1..][i] == mid[i + 1];
      }
      CollectUpToEnd(mid[1..], post);
      if StartsWith(mid[0], BeginMarker) {
        MarkerIsPrefixed(mid[0], BeginMarker);
      }
    }
  }

  /**
    Lines with neither marker, the begin marker, lines without an end marker,
    the end marker and anything after collect into the chunk text between the
    markers.
   */
  lemma CollectOfLayout(pre: seq<string>, mid: seq<string>, post: seq<string>)
    requires NoMarker(pre, BeginMarker) && NoMarker(pre, EndMarker)
    requires NoMarker(mid, EndMarker)
    ensures CollectBlock(pre + ([BeginMarker] + (mid + [EndMarker] + post)), false) == ChunkText(mid)
  {
    var block := mid + [EndMarker] + post;
    CollectSkipsPrelude(pre, [BeginMarker] + block);
    CollectAfterBegin(block);
    CollectUpToEnd(mid, post);
  }

  /**
    A signature file laid out as a first line, lines with neither marker, the
    begin marker, lines without an end marker, the end marker and anything
    after loads as the trimmed first line and the chunk text between the
    markers.
   */
  lemma LoadOfLayout(first: string, pre: seq<string>, mid: seq<string>, post: seq<string>)
    requires NoMarker(pre, BeginMarker) && NoMarker(pre, EndMarker)
    requires NoMarker(mid, EndMarker)
    requires |pre| + |mid| + |post| >= 1
    ensures LoadSignatureFile([first] + (pre + ([BeginMarker] + (mid + [EndMarker] + post))))
      == Success(ComposeSignatureLine(Trim(first), ChunkText(mid)))
  {
    var tail := pre + ([BeginMarker] + (mid + [EndMarker] + post));
    var lines := [first] + tail;
    CollectOfLayout(pre, mid, post);
    assert lines[1..] == tail;
    assert |lines| >= 4 && lines[0] == first;
    hide *;
  }

  /**
    `LoadSignatureFile` rejects a three-line file such as the digest and the
    two markers with nothing between them: it needs at least four lines.
   */
  lemma EmptyBlockRejected(digest: string)
    ensures LoadSignatureFile(CatalogLines(SignatureParts(digest, ""))) == Failure(InvalidSignatureFile)
  {
    assert Chunks("") == [];
    assert |CatalogLines(SignatureParts(digest, ""))| == 3;
  }

  /**
    A file with no chunk lines but a blank line after the end marker has four
    lines, and loads as the line with an empty block.
   */
  lemma LoadEmptyCatalog(digest: string)
    requires NoWhiteSpace(digest)
    ensures LoadSignatureFile([digest, BeginMarker, EndMarker, ""]) == Success(ComposeSignatureLine(digest, ""))
  {
    TrimUnchanged(digest);
    assert [digest, BeginMarker, EndMarker, ""] == [digest] + ([] + ([BeginMarker] + ([] + [EndMarker] + [""])));
    LoadOfLayout(digest, [], [], [""]);
  }

  /**
    The line with a digest string and an empty block, alone in a comment, is
    found as the signature line, but at 88 characters it is one short of what
    `SplitSignatureCommentLine` accepts.
   */
  lemma EmptyBlockLineIsFound(digest: string)
    requires |digest| == DigestLength && NoWhiteSpace(digest)
    ensures var line := ComposeSignatureLine(digest, "");
      && |line| == MinimumLineLength - 1
      && SignatureLineOf(line) == Some(line)
      && SplitSignatureCommentLine(line) == Failure(InvalidSignatureLine)
  {
    var line := ComposeSignatureLine(digest, "");
    assert StartsWith(line, SignatureTag) by {
      assert line[..|SignatureTag|] == SignatureKey[..|SignatureTag|];
    }
    NoWhiteSpaceNoLineEnd(digest);
    assert '\n' !in line by {
      assert line == SignatureKey + digest + ",";
    }
    assert line[|line| - 1] == ',';
    SignatureLineOfSingleLine(line);
  }

  /** A chunk line without `#` in its chunk is neither marker, and contributes its chunk. */
  lemma ChunkLineIsNotMarker(chunk: string)
    requires '#' !in chunk
    ensures var line := LinePrefix + chunk;
      && StartsWith(line, LinePrefix)
      && !StartsWith(line, BeginMarker)
      && !StartsWith(line, EndMarker)
      && line[2..] == chunk
  {
    var line := LinePrefix + chunk;
    assert line[..2] == LinePrefix;
    if |line| >= |EndMarker| {
      assert line[..|EndMarker|][6] == chunk[4];
      assert BeginMarker[6] == '#' && EndMarker[6] == '#';
    }
  }

  /** Inside the block, chunk lines up to the end marker collect back into their chunks. */
  lemma {:induction false} CollectChunkLines(chunks: seq<string>, rest: seq<string>)
    requires forall i :: 0 <= i < |chunks| ==> '#' !in chunks[i]
    ensures CollectBlock(ChunkLines(chunks) + [EndMarker] + rest, true) == Concat(chunks)
    decreases |chunks|
  {
    var lines := ChunkLines(chunks) + [EndMarker] + rest;
    if chunks == [] {
      assert lines[0] == EndMarker;
      assert !StartsWith(EndMarker, BeginMarker);
      assert StartsWith(EndMarker, LinePrefix) && StartsWith(EndMarker, EndMarker);
    } else {
      ChunkLineIsNotMarker(chunks[0]);
      assert lines[0] == LinePrefix + chunks[0];
      assert lines[1..] == ChunkLines(chunks[1..]) + [EndMarker] + rest;
      CollectChunkLines(chunks[1..], rest);
    }
  }

  /** The begin marker turns the block on. */
  lemma CollectAfterBegin(lines: seq<string>)
    ensures CollectBlock([BeginMarker] + lines, false) == CollectBlock(lines, true)
  {
    assert StartsWith(BeginMarker, LinePrefix) && StartsWith(BeginMarker, BeginMarker);
    assert ([BeginMarker] + lines)[1..] == lines;
  }

  /** Text without whitespace has no line end. */
  lemma NoWhiteSpaceNoLineEnd(s: string)
    requires NoWhiteSpace(s)
    ensures '\n' !in s
  {
    assert IsWhiteSpace('\n');
  }

  /** The catalog has no line break inside a line when the digest and the block have no whitespace. */
  lemma CatalogHasNoLineEnds(parts: SignatureParts)
    requires NoWhiteSpace(parts.digest) && NoWhiteSpace(parts.block)
    ensures NoLineEnds(CatalogLines(parts))
  {
    var chunks := Chunks(parts.block);
    NoWhiteSpaceNoLineEnd(parts.block);
    NoWhiteSpaceNoLineEnd(parts.digest);
    ChunksAvoid(parts.block, '\n');
    var lines := CatalogLines(parts);
    forall i | 0 <= i < |lines|
      ensures '\n' !in lines[i]
    {
      if i == 0 {
        assert lines[i] == parts.digest;
      } else if i == 1 {
        assert lines[i] == BeginMarker;
      } else if i == |lines| - 1 {
        assert lines[i] == EndMarker;
      } else {
        assert lines[i] == LinePrefix + chunks[i - 2];
      }
    }
  }

  /**
    A catalog with a non-empty block folds back into the composed line: its
    first line is the digest, already trimmed, and its chunk lines collect
    into the block. The digest must have no whitespace and the block no `#`.
   */
  lemma LoadOfCatalog(parts: SignatureParts)
    requires NoWhiteSpace(parts.digest)
    requires |parts.block| >= 1 && '#' !in parts.block
    ensures LoadSignatureFile(CatalogLines(parts)) == Success(ComposeSignatureLine(parts.digest, parts.block))
  {
    hide CatalogLines, ChunkLines, Chunks, CollectBlock, ChunkText, Trim, Concat, LoadSignatureFile;
    var chunks := Chunks(parts.block);
    var lines := CatalogLines(parts);
    var tail := ChunkLines(chunks) + [EndMarker] + [];
    assert |chunks| >= 1;
    CatalogLinesOf(parts.digest, parts.block);
    TrimUnchanged(parts.digest);
    ChunksAvoid(parts.block, '#');
    CollectChunkLines(chunks, []);
    assert lines == [parts.digest] + ([BeginMarker] + tail);
    assert lines[1..] == [BeginMarker] + tail;
    CollectAfterBegin(tail);
    assert |lines| >= 4 && lines[0] == parts.digest;
  }

  /**
    Reading back the catalog `SaveSignatureData` writes folds it into the
    composed line, which is the original line exactly when its separator is a
    comma. The digest and the block must be free of whitespace, and the block
    free of `#`, as a digest string and base64 text are.
   */
  lemma LoadOfSave(line: string)
    requires SplitSignatureCommentLine(line).Success?
    requires NoWhiteSpace(SplitSignatureCommentLine(line).value.digest)
    requires NoWhiteSpace(SplitSignatureCommentLine(line).value.block)
    requires '#' !in SplitSignatureCommentLine(line).value.block
    ensures var parts := SplitSignatureCommentLine(line).value;
      LoadSignatureFile(ReadLines(JoinLines(CatalogLines(parts))))
        == Success(ComposeSignatureLine(parts.digest, parts.block))
    ensures (LoadSignatureFile(ReadLines(JoinLines(CatalogLines(SplitSignatureCommentLine(line).value))))
        == Success(line)) <==> line[87] == ','
  {
    var parts := SplitSignatureCommentLine(line).value;
    CatalogHasNoLineEnds(parts);
    ReadLinesOfJoinLines(CatalogLines(parts));
    LoadOfCatalog(parts);
    ComposeOfSplit(line);
  }
}

=== FILE: zip_errors.dfy ===
/**
  The exceptions the archive code throws, as values. Every one of them is an
  `InvalidDataException` (or a plain `Exception`) in ZipFile.cs; the variants
  keep apart the places that throw.
 */
module ZipErrors {
  import opened Bytes

  datatype ZipError =
    /** A local file record whose header or declared data runs past the end of the buffer. */
    | InvalidLocalFileRecord
    /** A central directory record whose header or declared data runs past the end of the buffer. */
    | InvalidCentralFileRecord
    /** An end-of-central-directory record whose header or comment runs past the end of the buffer. */
    | InvalidEndOfCentralDirRecord
    /** A 4-byte record signature the scanner does not know. */
    | UnhandledRecordHeader(signature: uint32)
    /** The scan ran out of buffer before finding an end-of-central-directory record. */
    | UnparsableZip
    /** A signature comment line without the `ZipAuthenticode=sha256:` prefix or shorter than 89 characters. */
    | InvalidSignatureLine
    /** A signature file of fewer than four lines. */
    | InvalidSignatureFile
    /** Verification of an archive whose comment holds no signature line. */
    | MissingSignature
    /** The digest stored in the comment differs from the archive's digest. */
    | DigestMismatch

  /** The errors the archive scanner can raise. */
  predicate IsScanError(e: ZipError) {
    e.InvalidLocalFileRecord? || e.InvalidCentralFileRecord? || e.InvalidEndOfCentralDirRecord?
    || e.UnhandledRecordHeader? || e.UnparsableZip?
  }
}

=== FILE: zip_layout.dfy ===
/**
  What the scanner accepts, stated from the other side: an archive assembled
  from local and central records whose headers declare their true sizes,
  followed by an end-of-central-directory record and its comment. The scanner
  finds the footer of every such archive, and rejects every truncation of one.
 */
module ZipLayout {
  import opened Wrappers
  import opened Bytes
  import opened ZipRecords
  import opened ZipErrors
  import opened ZipScanner
  import opened Seqs

  /** A local record: its header followed by exactly the bytes its declared sizes cover. */
  predicate IsLocalFileRecord(record: seq<byte>) {
    && LocalFileHeaderSize <= |record|
    && ReadUInt32(record, 0) == LocalFileHeaderSignature
    && |record| == LocalRecordSpanAt(record, 0)
  }

  /**
    A central record as the scanner sees it: header, file name and extra
    field. An entry comment after them is not part of it.
   */
  predicate IsCentralFileRecord(record: seq<byte>) {
    && CentralFileHeaderSize <= |record|
    && ReadUInt32(record, 0) == CentralFileHeaderSignature
    && |record| == CentralRecordSpanAt(record, 0)
  }

  predicate IsRecord(record: seq<byte>) {
    IsLocalFileRecord(record) || IsCentralFileRecord(record)
  }

  /** An end-of-central-directory record followed by exactly the comment its length field declares. */
  predicate IsFooter(footer: seq<byte>) {
    && EndOfCentralDirSize <= |footer|
    && ReadUInt32(footer, 0) == EndOfCentralDirSignature
    && |footer| == EndRecordSpanAt(footer, 0)
  }

  /** The number of bytes the records take up together. */
  function TotalSize(records: seq<seq<byte>>): nat {
    if records == [] then 0 else |records[0]| + TotalSize(records[1..])
  }

  lemma {:induction false} ConcatSize(records: seq<seq<byte>>)
    ensures |Concat(records)| == TotalSize(records)
    decreases |records|
  {
    if records != [] {
      ConcatSize(records[1..]);
    }
  }

  /** The archive laid out as its records followed by its footer. */
  function Archive(records: seq<seq<byte>>, footer: seq<byte>): seq<byte> {
    Concat(records) + footer
  }

  /** The record fields read at `at` inside `s[offset..offset + len]` are those read at `offset + at` in `s`. */
  lemma ReadInSlice(s: seq<byte>, offset: nat, len: nat, at: nat)
    requires offset + len <= |s|
    ensures at + 4 <= len ==> ReadUInt32(s[offset..offset + len], at) == ReadUInt32(s, offset + at)
    ensures at + LocalFileHeaderSize <= len ==> LocalRecordSpanAt(s[offset..offset + len], at) == LocalRecordSpanAt(s, offset + at)
    ensures at + CentralFileHeaderSize <= len ==> CentralRecordSpanAt(s[offset..offset + len], at) == CentralRecordSpanAt(s, offset + at)
    ensures at + EndOfCentralDirSize <= len ==> EndRecordSpanAt(s[offset..offset + len], at) == EndRecordSpanAt(s, offset + at)
  {
  }

  /** A suffix that is `a + b` splits into a slice that is `a` and a suffix that is `b`. */
  lemma SplitSuffix(s: seq<byte>, offset: nat, a: seq<byte>, b: seq<byte>)
    requires offset <= |s| && s[offset..] == a + b
    ensures offset + |a| <= |s|
    ensures s[offset..offset + |a|] == a
    ensures s[offset + |a|..] == b
  {
    assert s[offset..offset + |a|] == s[offset..][..|a|];
    assert s[offset + |a|..] == s[offset..][|a|..];
  }

  /**
    The loop pass at a footer that ends `whole`, seen through `data`, the
    first `n` bytes of `whole`: it finds the footer only in the whole buffer.
   */
  lemma FooterStepAt(whole: seq<byte>, n: nat, data: seq<byte>, offset: nat, footer: seq<byte>)
    requires IsFooter(footer)
    requires offset <= n <= |whole| && data == whole[..n]
    requires whole[offset..] == footer
    ensures n == |whole| ==> offset + 4 < |data| && ScanStep(data, offset).Footer?
    ensures n < |whole| ==> offset + 4 >= |data| || ScanStep(data, offset).Stop?
  {
    assert whole[offset..offset + |footer|] == footer;
    ReadInSlice(whole, offset, |footer|, 0);
    ReadInPrefix(whole, n, offset);
  }

  /**
    The loop pass at a record that sits in `whole` at `offset`, seen through
    `data`, the first `n` bytes of `whole`: it skips the record when `data`
    holds all of it and throws otherwise.
   */
  lemma RecordStepAt(whole: seq<byte>, n: nat, data: seq<byte>, offset: nat, record: seq<byte>)
    requires IsRecord(record)
    requires offset <= n <= |whole| && data == whole[..n]
    requires offset + |record| <= |whole| && whole[offset..offset + |record|] == record
    ensures offset + |record| <= n ==> offset + 4 < |data| && ScanStep(data, offset) == Skip(offset + |record|)
    ensures n < offset + |record| ==> offset + 4 >= |data| || ScanStep(data, offset).Stop?
  {
    ReadInSlice(whole, offset, |record|, 0);
    ReadInPrefix(whole, n, offset);
  }

  /** Scanning `data` from a footer that ends `whole`: only the whole buffer succeeds. */
  lemma ScanFooter(whole: seq<byte>, n: nat, data: seq<byte>, offset: nat, footer: seq<byte>)
    requires IsFooter(footer)
    requires offset <= n <= |whole| && data == whole[..n]
    requires whole[offset..] == footer
    ensures n == |whole| ==> ScanRecords(data, offset) == Success(offset)
    ensures n < |whole| ==> ScanRecords(data, offset).Failure?
  {
    hide *;
    FooterStepAt(whole, n, data, offset, footer);
    if n == |whole| {
      ScanFinds(data, offset);
    } else {
      ScanStops(data, offset);
    }
  }

  /**
    Scanning `data` from a record: a prefix that cuts the record short fails,
    any other goes on at the end of the record.
   */
  lemma ScanRecordStep(whole: seq<byte>, n: nat, data: seq<byte>, offset: nat, record: seq<byte>)
    requires IsRecord(record)
    requires offset <= n <= |whole| && data == whole[..n]
    requires offset + |record| <= |whole| && whole[offset..offset + |record|] == record
    ensures n < offset + |record| ==> ScanRecords(data, offset).Failure?
    ensures offset + |record| <= n ==> ScanRecords(data, offset) == ScanRecords(data, offset + |record|)
  {
    hide *;
    RecordStepAt(whole, n, data, offset, record);
    if offset + |record| <= n {
      ScanSkips(data, offset, offset + |record|);
    } else {
      ScanStops(data, offset);
    }
  }

  /** Every element is a local or central record. */
  ghost predicate AllRecords(records: seq<seq<byte>>) {
    forall i :: 0 <= i < |records| ==> IsRecord(records[i])
  }

  /** `whole` holds, from `offset` to its end, the given records one after another and then the footer. */
  ghost predicate LaidOutAt(whole: seq<byte>, offset: nat, records: seq<seq<byte>>, footer: seq<byte>)
    decreases |records|
  {
    if records == [] then
      offset <= |whole| && whole[offset..] == footer
    else
      && offset + |records[0]| <= |whole|
      && whole[offset..offset + |records[0]|] == records[0]
      && LaidOutAt(whole, offset + |records[0]|, records[1..], footer)
  }

  /** A buffer whose suffix is the concatenation of the records and the footer has them laid out in it. */
  lemma {:induction false} LaidOutOfConcat(whole: seq<byte>, offset: nat, records: seq<seq<byte>>, footer: seq<byte>)
    requires offset <= |whole| && whole[offset..] == Concat(records) + footer
    ensures LaidOutAt(whole, offset, records, footer)
    decreases |records|
  {
    if records != [] {
      assert Concat(records) + footer == records[0] + (Concat(records[1..]) + footer);
      SplitSuffix(whole, offset, records[0], Concat(records[1..]) + footer);
      LaidOutOfConcat(whole, offset + |records[0]|, records[1..], footer);
    }
  }

  /** With no records left, the footer is what remains. */
  lemma LaidOutEnd(whole: seq<byte>, offset: nat, records: seq<seq<byte>>, footer: seq<byte>)
    requires records == [] && LaidOutAt(whole, offset, records, footer)
    ensures offset <= |whole| && whole[offset..] == footer
    ensures TotalSize(records) == 0
  {
  }

  /** The first record sits at `offset`, and the others are laid out after it. */
  lemma LaidOutNext(whole: seq<byte>, offset: nat, records: seq<seq<byte>>, footer: seq<byte>)
    requires records != [] && AllRecords(records) && LaidOutAt(whole, offset, records, footer)
    ensures IsRecord(records[0])
    ensures offset + |records[0]| <= |whole| && whole[offset..offset + |records[0]|] == records[0]
    ensures AllRecords(records[1..]) && LaidOutAt(whole, offset + |records[0]|, records[1..], footer)
    ensures TotalSize(records) == |records[0]| + TotalSize(records[1..])
  {
    assert forall i :: 0 <= i < |records[1..]| ==> records[1..][i] == records[i + 1];
  }

  /** One record of the layout, seen by the scanner through the prefix `data` of `whole`. */
  lemma ScanNextRecord(whole: seq<byte>, n: nat, data: seq<byte>, offset: nat, records: seq<seq<byte>>, footer: seq<byte>)
    returns (next: nat)
    requires records != [] && AllRecords(records) && LaidOutAt(whole, offset, records, footer)
    requires offset <= n <= |whole| && data == whole[..n]
    ensures next == offset + |records[0]| && next <= |whole|
    ensures AllRecords(records[1..]) && LaidOutAt(whole, next, records[1..], footer)
    ensures TotalSize(records) == |records[0]| + TotalSize(records[1..])
    ensures n < next ==> ScanRecords(data, offset).Failure?
    ensures next <= n ==> ScanRecords(data, offset) == ScanRecords(data, next)
  {
    hide *;
    LaidOutNext(whole, offset, records, footer);
    ScanRecordStep(whole, n, data, offset, records[0]);
    next := offset + |records[0]|;
  }

  /**
    Scanning `data`, the first `n` bytes of `whole`, from `offset`, where the
    rest of `whole` is a run of records and a footer: the whole buffer scans to
    the footer, every shorter prefix fails.
   */
  lemma {:induction false} ScanLaidOut(whole: seq<byte>, n: nat, data: seq<byte>, offset: nat, records: seq<seq<byte>>, footer: seq<byte>)
    requires AllRecords(records) && IsFooter(footer) && LaidOutAt(whole, offset, records, footer)
    requires offset <= n <= |whole| && data == whole[..n]
    ensures n == |whole| ==> ScanRecords(data, offset) == Success(offset + TotalSize(records))
    ensures n < |whole| ==> ScanRecords(data, offset).Failure?
    decreases |records|
  {
    hide *;
    if records == [] {
      LaidOutEnd(whole, offset, records, footer);
      ScanFooter(whole, n, data, offset, footer);
    } else {
      var next := ScanNextRecord(whole, n, data, offset, records, footer);
      if next <= n {
        ScanLaidOut(whole, n, data, next, records[1..], footer);
      }
    }
  }

  /**
    The scanner finds the footer of an archive laid out as honest records
    followed by a footer, at the offset where the records end.
   */
  lemma ScanArchive(records: seq<seq<byte>>, footer: seq<byte>)
    requires forall i :: 0 <= i < |records| ==> IsRecord(records[i])
    requires IsFooter(footer)
    ensures FindZipFooterOffset(Archive(records, footer)) == Success(|Concat(records)|)
  {
    var whole := Archive(records, footer);
    assert whole[..|whole|] == whole && whole[0..] == whole;
    LaidOutOfConcat(whole, 0, records, footer);
    ConcatSize(records);
    ScanLaidOut(whole, |whole|, whole, 0, records, footer);
  }

  /** Every truncation of such an archive, mid-record or mid-footer, is rejected. */
  lemma ScanRejectsTruncation(records: seq<seq<byte>>, footer: seq<byte>, n: nat)
    requires forall i :: 0 <= i < |records| ==> IsRecord(records[i])
    requires IsFooter(footer)
    requires n < |Archive(records, footer)|
    ensures FindZipFooterOffset(Archive(records, footer)[..n]).Failure?
  {
    var whole := Archive(records, footer);
    assert whole[0..] == whole;
    LaidOutOfConcat(whole, 0, records, footer);
    ScanLaidOut(whole, n, whole[..n], 0, records, footer);
  }
}

=== FILE: zip_records.dfy ===
/**
  The three ZIP record headers the archive scanner recognises (sections 4.3.7,
  4.3.12 and 4.3.16 of PKWARE's APPNOTE.TXT), their signatures and fixed
  sizes, and little-endian readers that take the place of the packed
  struct overlays of ZipFile.cs.
 */
module ZipRecords {
  import opened Bytes

  const LocalFileHeaderSignature: uint32 := 0x04034b50
  const LocalFileHeaderSize: nat := 30

  const CentralFileHeaderSignature: uint32 := 0x02014b50
  const CentralFileHeaderSize: nat := 46

  const EndOfCentralDirSignature: uint32 := 0x06054b50
  const EndOfCentralDirSize: nat := 22

  /** Offset of the 2-byte comment-length field inside the end-of-central-directory record. */
  const CommentLengthOffset: nat := 20

  /** The 30-byte local file header. */
  datatype LocalFileHeader = LocalFileHeader(
    signature: uint32,
    version: uint16,
    bitflags: uint16,
    compressionMethod: uint16,
    lastModFileTime: uint16,
    lastModFileDate: uint16,
    crc32: uint32,
    compressedSize: uint32,
    uncompressedSize: uint32,
    fileNameLength: uint16,
    extraFieldLength: uint16)

  /** The 46-byte central directory file header. */
  datatype CentralFileHeader = CentralFileHeader(
    signature: uint32,
    versionUsed: uint16,
    versionRequired: uint16,
    bitflags: uint16,
    compressionMethod: uint16,
    lastModFileTime: uint16,
    lastModFileDate: uint16,
    crc32: uint32,
    compressedSize: uint32,
    uncompressedSize: uint32,
    fileNameLength: uint16,
    extraFieldLength: uint16,
    fileCommentLength: uint16,
    diskNumberStart: uint16,
    internalFileAttributes: uint16,
    externalFileAttributes: uint32,
    relativeOffsetOfLocalHeader: uint32)

  /** The 22-byte end-of-central-directory record, without the comment that follows it. */
  datatype EndOfCentralDirHeader = EndOfCentralDirHeader(
    signature: uint32,
    diskNumberCurrent: uint16,
    diskNumberCentral: uint16,
    diskEntryCountCurrent: uint16,
    diskEntryCountCentral: uint16,
    centralDirSize: uint32,
    centralDirOffset: uint32,
    fileCommentLength: uint16)

  /** The bytes a local record claims: header, file name, extra field and compressed data. */
  function LocalRecordSpan(h: LocalFileHeader): nat {
    LocalFileHeaderSize + h.compressedSize + h.fileNameLength + h.extraFieldLength
  }

  /**
    The bytes ZipFile.cs takes a central record to occupy: header, file name
    and extra field. The entry's own comment (`fileCommentLength`) is not
    counted, unlike in section 4.3.12 of APPNOTE.TXT.
   */
  function CentralRecordSpan(h: CentralFileHeader): nat {
    CentralFileHeaderSize + h.fileNameLength + h.extraFieldLength
  }

  /** The bytes the end-of-central-directory record claims: fixed part and archive comment. */
  function EndRecordSpan(h: EndOfCentralDirHeader): nat {
    EndOfCentralDirSize + h.fileCommentLength
  }

  function ParseLocalFileHeader(s: seq<byte>, offset: nat): LocalFileHeader
    requires offset + LocalFileHeaderSize <= |s|
  {
    LocalFileHeader(
      ReadUInt32(s, offset), ReadUInt16(s, offset + 4), ReadUInt16(s, offset + 6),
      ReadUInt16(s, offset + 8), ReadUInt16(s, offset + 10), ReadUInt16(s, offset + 12),
      ReadUInt32(s, offset + 14), ReadUInt32(s, offset + 18), ReadUInt32(s, offset + 22),
      ReadUInt16(s, offset + 26), ReadUInt16(s, offset + 28))
  }

  function ParseCentralFileHeader(s: seq<byte>, offset: nat): CentralFileHeader
    requires offset + CentralFileHeaderSize <= |s|
  {
    CentralFileHeader(
      ReadUInt32(s, offset), ReadUInt16(s, offset + 4), ReadUInt16(s, offset + 6),
      ReadUInt16(s, offset + 8), ReadUInt16(s, offset + 10), ReadUInt16(s, offset + 12),
      ReadUInt16(s, offset + 14), ReadUInt32(s, offset + 16), ReadUInt32(s, offset + 20),
      ReadUInt32(s, offset + 24), ReadUInt16(s, offset + 28), ReadUInt16(s, offset + 30),
      ReadUInt16(s, offset + 32), ReadUInt16(s, offset + 34), ReadUInt16(s, offset + 36),
      ReadUInt32(s, offset + 38), ReadUInt32(s, offset + 42))
  }

  /**
    The EOCD header read at `offset`. The `ensures` only names the comment
    length field for the proofs that use it; the content of the parse is
    stated by `ParseSerializedEndOfCentralDirHeader`.
   */
  function ParseEndOfCentralDirHeader(s: seq<byte>, offset: nat): (h: EndOfCentralDirHeader)
    requires offset + EndOfCentralDirSize <= |s|
    ensures h.fileCommentLength == ReadUInt16(s, offset + CommentLengthOffset)
  {
    EndOfCentralDirHeader(
      ReadUInt32(s, offset), ReadUInt16(s, offset + 4), ReadUInt16(s, offset + 6),
      ReadUInt16(s, offset + 8), ReadUInt16(s, offset + 10), ReadUInt32(s, offset + 12),
      ReadUInt32(s, offset + 16), ReadUInt16(s, offset + 20))
  }

  /**
    The span of the local record at `offset`, from the three header fields the
    code reads through its struct overlay.
   */
  function LocalRecordSpanAt(s: seq<byte>, offset: nat): nat
    requires offset + LocalFileHeaderSize <= |s|
  {
    LocalFileHeaderSize + ReadUInt32(s, offset + 18) + ReadUInt16(s, offset + 26) + ReadUInt16(s, offset + 28)
  }

  /** The span of the central record at `offset`, from its two name and extra-field lengths. */
  function CentralRecordSpanAt(s: seq<byte>, offset: nat): nat
    requires offset + CentralFileHeaderSize <= |s|
  {
    CentralFileHeaderSize + ReadUInt16(s, offset + 28) + ReadUInt16(s, offset + 30)
  }

  /** The span of the end-of-central-directory record at `offset`, from its comment length. */
  function EndRecordSpanAt(s: seq<byte>, offset: nat): nat
    requires offset + EndOfCentralDirSize <= |s|
  {
    EndOfCentralDirSize + ReadUInt16(s, offset + CommentLengthOffset)
  }

  // Writing the headers: the fields in declaration order, each little-endian,
  // 4 bytes for a `uint32` and 2 for a `uint16`.

  function SerializeLocalFileHeader(h: LocalFileHeader): (r: seq<byte>)
    ensures |r| == LocalFileHeaderSize
  {
    UInt32Bytes(h.signature) + UInt16Bytes(h.version) + UInt16Bytes(h.bitflags)
    + UInt16Bytes(h.compressionMethod) + UInt16Bytes(h.lastModFileTime) + UInt16Bytes(h.lastModFileDate)
    + UInt32Bytes(h.crc32) + UInt32Bytes(h.compressedSize) + UInt32Bytes(h.uncompressedSize)
    + UInt16Bytes(h.fileNameLength) + UInt16Bytes(h.extraFieldLength)
  }

  /** The local-header reader takes apart exactly what the writer laid out. */
  lemma ParseSerializedLocalFileHeader(h: LocalFileHeader, rest: seq<byte>)
    ensures ParseLocalFileHeader(SerializeLocalFileHeader(h) + rest, 0) == h
  {
    var s := SerializeLocalFileHeader(h) + rest;
    assert s[0..4] == UInt32Bytes(h.signature);
    assert s[4..6] == UInt16Bytes(h.version);
    assert s[6..8] == UInt16Bytes(h.bitflags);
    assert s[8..10] == UInt16Bytes(h.compressionMethod);
    assert s[10..12] == UInt16Bytes(h.lastModFileTime);
    assert s[12..14] == UInt16Bytes(h.lastModFileDate);
    assert s[14..18] == UInt32Bytes(h.crc32);
    assert s[18..22] == UInt32Bytes(h.compressedSize);
    assert s[22..26] == UInt32Bytes(h.uncompressedSize);
    assert s[26..28] == UInt16Bytes(h.fileNameLength);
    assert s[28..30] == UInt16Bytes(h.extraFieldLength);
    ReadUInt32Written(s, 0, h.signature);
    ReadUInt16Written(s, 4, h.version);
    ReadUInt16Written(s, 6, h.bitflags);
    ReadUInt16Written(s, 8, h.compressionMethod);
    ReadUInt16Written(s, 10, h.lastModFileTime);
    ReadUInt16Written(s, 12, h.lastModFileDate);
    ReadUInt32Written(s, 14, h.crc32);
    ReadUInt32Written(s, 18, h.compressedSize);
    ReadUInt32Written(s, 22, h.uncompressedSize);
    ReadUInt16Written(s, 26, h.fileNameLength);
    ReadUInt16Written(s, 28, h.extraFieldLength);
  }

  /** The first 28 bytes of a central header: signature, versions, flags, method, time, date, CRC and sizes. */
  function CentralFileHeaderFront(h: CentralFileHeader): (r: seq<byte>)
    ensures |r| == 28
  {
    UInt32Bytes(h.signature) + UInt16Bytes(h.versionUsed) + UInt16Bytes(h.versionRequired)
    + UInt16Bytes(h.bitflags) + UInt16Bytes(h.compressionMethod) + UInt16Bytes(h.lastModFileTime)
    + UInt16Bytes(h.lastModFileDate) + UInt32Bytes(h.crc32) + UInt32Bytes(h.compressedSize)
    + UInt32Bytes(h.uncompressedSize)
  }

  /** The last 18 bytes of a central header: lengths, disk number, attributes and local-header offset. */
  function CentralFileHeaderBack(h: CentralFileHeader): (r: seq<byte>)
    ensures |r| == 18
  {
    UInt16Bytes(h.fileNameLength) + UInt16Bytes(h.extraFieldLength) + UInt16Bytes(h.fileCommentLength)
    + UInt16Bytes(h.diskNumberStart) + UInt16Bytes(h.internalFileAttributes)
    + UInt32Bytes(h.externalFileAttributes) + UInt32Bytes(h.relativeOffsetOfLocalHeader)
  }

  function SerializeCentralFileHeader(h: CentralFileHeader): (r: seq<byte>)
    ensures |r| == CentralFileHeaderSize
  {
    CentralFileHeaderFront(h) + CentralFileHeaderBack(h)
  }

  lemma ReadCentralFileHeaderFront(h: CentralFileHeader, s: seq<byte>)
    requires 28 <= |s| && s[..28] == CentralFileHeaderFront(h)
    ensures ReadUInt32(s, 0) == h.signature
      && ReadUInt16(s, 4) == h.versionUsed
      && ReadUInt16(s, 6) == h.versionRequired
      && ReadUInt16(s, 8) == h.bitflags
      && ReadUInt16(s, 10) == h.compressionMethod
      && ReadUInt16(s, 12) == h.lastModFileTime
      && ReadUInt16(s, 14) == h.lastModFileDate
      && ReadUInt32(s, 16) == h.crc32
      && ReadUInt32(s, 20) == h.compressedSize
      && ReadUInt32(s, 24) == h.uncompressedSize
  {
    assert s[0..4] == UInt32Bytes(h.signature);
    assert s[4..6] == UInt16Bytes(h.versionUsed);
    assert s[6..8] == UInt16Bytes(h.versionRequired);
    assert s[8..10] == UInt16Bytes(h.bitflags);
    assert s[10..12] == UInt16Bytes(h.compressionMethod);
    assert s[12..14] == UInt16Bytes(h.lastModFileTime);
    assert s[14..16] == UInt16Bytes(h.lastModFileDate);
    assert s[16..20] == UInt32Bytes(h.crc32);
    assert s[20..24] == UInt32Bytes(h.compressedSize);
    assert s[24..28] == UInt32Bytes(h.uncompressedSize);
    ReadUInt32Written(s, 0, h.signature);
    ReadUInt16Written(s, 4, h.versionUsed);
    ReadUInt16Written(s, 6, h.versionRequired);
    ReadUInt16Written(s, 8, h.bitflags);
    ReadUInt16Written(s, 10, h.compressionMethod);
    ReadUInt16Written(s, 12, h.lastModFileTime);
    ReadUInt16Written(s, 14, h.lastModFileDate);
    ReadUInt32Written(s, 16, h.crc32);
    ReadUInt32Written(s, 20, h.compressedSize);
    ReadUInt32Written(s, 24, h.uncompressedSize);
  }

  lemma ReadCentralFileHeaderBack(h: CentralFileHeader, s: seq<byte>)
    requires 46 <= |s| && s[28..46] == CentralFileHeaderBack(h)
    ensures ReadUInt16(s, 28) == h.fileNameLength
      && ReadUInt16(s, 30) == h.extraFieldLength
      && ReadUInt16(s, 32) == h.fileCommentLength
      && ReadUInt16(s, 34) == h.diskNumberStart
      && ReadUInt16(s, 36) == h.internalFileAttributes
      && ReadUInt32(s, 38) == h.externalFileAttributes
      && ReadUInt32(s, 42) == h.relativeOffsetOfLocalHeader
  {
    var b := s[28..46];
    assert b[0..2] == UInt16Bytes(h.fileNameLength);
    assert b[2..4] == UInt16Bytes(h.extraFieldLength);
    assert b[4..6] == UInt16Bytes(h.fileCommentLength);
    assert b[6..8] == UInt16Bytes(h.diskNumberStart);
    assert b[8..10] == UInt16Bytes(h.internalFileAttributes);
    assert b[10..14] == UInt32Bytes(h.externalFileAttributes);
    assert b[14..18] == UInt32Bytes(h.relativeOffsetOfLocalHeader);
    ReadUInt16Written(b, 0, h.fileNameLength);
    FieldsInSlice(s, 28, 46, 0);
    ReadUInt16Written(b, 2, h.extraFieldLength);
    FieldsInSlice(s, 28, 46, 2);
    ReadUInt16Written(b, 4, h.fileCommentLength);
    FieldsInSlice(s, 28, 46, 4);
    ReadUInt16Written(b, 6, h.diskNumberStart);
    FieldsInSlice(s, 28, 46, 6);
    ReadUInt16Written(b, 8, h.internalFileAttributes);
    FieldsInSlice(s, 28, 46, 8);
    ReadUInt32Written(b, 10, h.externalFileAttributes);
    FieldsInSlice(s, 28, 46, 10);
    ReadUInt32Written(b, 14, h.relativeOffsetOfLocalHeader);
    FieldsInSlice(s, 28, 46, 14);
  }

  /** The central-header reader takes apart exactly what the writer laid out. */
  lemma ParseSerializedCentralFileHeader(h: CentralFileHeader, rest: seq<byte>)
    ensures ParseCentralFileHeader(SerializeCentralFileHeader(h) + rest, 0) == h
  {
    var s := SerializeCentralFileHeader(h) + rest;
    assert s[..28] == CentralFileHeaderFront(h);
    assert s[28..46] == CentralFileHeaderBack(h);
    ReadCentralFileHeaderFront(h, s);
    ReadCentralFileHeaderBack(h, s);
  }

  function SerializeEndOfCentralDirHeader(h: EndOfCentralDirHeader): (r: seq<byte>)
    ensures |r| == EndOfCentralDirSize
  {
    UInt32Bytes(h.signature) + UInt16Bytes(h.diskNumberCurrent) + UInt16Bytes(h.diskNumberCentral)
    + UInt16Bytes(h.diskEntryCountCurrent) + UInt16Bytes(h.diskEntryCountCentral)
    + UInt32Bytes(h.centralDirSize) + UInt32Bytes(h.centralDirOffset) + UInt16Bytes(h.fileCommentLength)
  }

  /** The end-of-central-directory reader takes apart exactly what the writer laid out. */
  lemma ParseSerializedEndOfCentralDirHeader(h: EndOfCentralDirHeader, rest: seq<byte>)
    ensures ParseEndOfCentralDirHeader(SerializeEndOfCentralDirHeader(h) + rest, 0) == h
  {
    var s := SerializeEndOfCentralDirHeader(h) + rest;
    assert s[0..4] == UInt32Bytes(h.signature);
    assert s[4..6] == UInt16Bytes(h.diskNumberCurrent);
    assert s[6..8] == UInt16Bytes(h.diskNumberCentral);
    assert s[8..10] == UInt16Bytes(h.diskEntryCountCurrent);
    assert s[10..12] == UInt16Bytes(h.diskEntryCountCentral);
    assert s[12..16] == UInt32Bytes(h.centralDirSize);
    assert s[16..20] == UInt32Bytes(h.centralDirOffset);
    assert s[20..22] == UInt16Bytes(h.fileCommentLength);
    ReadUInt32Written(s, 0, h.signature);
    ReadUInt16Written(s, 4, h.diskNumberCurrent);
    ReadUInt16Written(s, 6, h.diskNumberCentral);
    ReadUInt16Written(s, 8, h.diskEntryCountCurrent);
    ReadUInt16Written(s, 10, h.diskEntryCountCentral);
    ReadUInt32Written(s, 12, h.centralDirSize);
    ReadUInt32Written(s, 16, h.centralDirOffset);
    ReadUInt16Written(s, 20, h.fileCommentLength);
  }

  /** The field readers above pick out the declared sizes of the parsed headers. */
  lemma SpansOfParsedHeaders(s: seq<byte>, offset: nat)
    ensures offset + LocalFileHeaderSize <= |s| ==>
      LocalRecordSpanAt(s, offset) == LocalRecordSpan(ParseLocalFileHeader(s, offset))
    ensures offset + CentralFileHeaderSize <= |s| ==>
      CentralRecordSpanAt(s, offset) == CentralRecordSpan(ParseCentralFileHeader(s, offset))
    ensures offset + EndOfCentralDirSize <= |s| ==>
      EndRecordSpanAt(s, offset) == EndRecordSpan(ParseEndOfCentralDirHeader(s, offset))
  {
  }
}

=== FILE: zip_scanner.dfy ===
/**
  The structural scanner of ZipFile.cs: starting at offset 0 it reads a 4-byte
  record signature, skips a local or central record by the sizes declared in
  its header, and stops at the first end-of-central-directory record. It never
  looks inside a record's declared span, so an EOCD-shaped run of bytes inside
  file data is not mistaken for the footer.
 */
module ZipScanner {
  import opened Wrappers
  import opened Bytes
  import opened ZipRecords
  import opened ZipErrors

  /**
    `GetLocalFileRecordSize`: the span of the local record at `offset`, or
    `None` where ZipFile.cs returns -1 because the header or the declared data
    runs past the end of the buffer.
   */
  function LocalFileRecordSize(data: seq<byte>, offset: nat): (r: Option<nat>)
    ensures r.Some? <==>
      && offset + LocalFileHeaderSize <= |data|
      && offset + LocalRecordSpan(ParseLocalFileHeader(data, offset)) <= |data|
    ensures r.Some? ==> r.value == LocalRecordSpan(ParseLocalFileHeader(data, offset))
    ensures r.Some? ==> LocalFileHeaderSize <= r.value
  {
    SpansOfParsedHeaders(data, offset);
    if offset + LocalFileHeaderSize > |data| then None
    else
      var recordSize := LocalRecordSpanAt(data, offset);
      if offset + recordSize > |data| then None else Some(recordSize)
  }

  /** `GetCentralFileRecordSize`: as above for a central record, whose entry comment is not counted. */
  function CentralFileRecordSize(data: seq<byte>, offset: nat): (r: Option<nat>)
    ensures r.Some? <==>
      && offset + CentralFileHeaderSize <= |data|
      && offset + CentralRecordSpan(ParseCentralFileHeader(data, offset)) <= |data|
    ensures r.Some? ==> r.value == CentralRecordSpan(ParseCentralFileHeader(data, offset))
    ensures r.Some? ==> CentralFileHeaderSize <= r.value
  {
    SpansOfParsedHeaders(data, offset);
    if offset + CentralFileHeaderSize > |data| then None
    else
      var recordSize := CentralRecordSpanAt(data, offset);
      if offset + recordSize > |data| then None else Some(recordSize)
  }

  /** `GetEndOfCentralDirRecordSize`: the span of the footer at `offset`, archive comment included. */
  function EndOfCentralDirRecordSize(data: seq<byte>, offset: nat): (r: Option<nat>)
    ensures r.Some? <==>
      && offset + EndOfCentralDirSize <= |data|
      && offset + EndRecordSpan(ParseEndOfCentralDirHeader(data, offset)) <= |data|
    ensures r.Some? ==> r.value == EndRecordSpan(ParseEndOfCentralDirHeader(data, offset))
    ensures r.Some? ==> EndOfCentralDirSize <= r.value
  {
    SpansOfParsedHeaders(data, offset);
    if offset + EndOfCentralDirSize > |data| then None
    else
      var recordSize := EndRecordSpanAt(data, offset);
      if offset + recordSize > |data| then None else Some(recordSize)
  }

  /**
    A valid footer sits at `p`: the end-of-central-directory signature, a fixed
    part inside the buffer, and a comment that ends inside the buffer too.
   */
  predicate IsFooterAt(data: seq<byte>, p: nat) {
    && p + EndOfCentralDirSize <= |data|
    && ReadUInt32(data, p) == EndOfCentralDirSignature
    && p + EndRecordSpanAt(data, p) <= |data|
  }

  /** The comment-length field of the footer at `p`. */
  function CommentLength(data: seq<byte>, p: nat): uint16
    requires p + EndOfCentralDirSize <= |data|
  {
    ReadUInt16(data, p + CommentLengthOffset)
  }

  /** What one pass of the scan loop does at an offset. */
  datatype Step =
    /** A local or central record whose declared span fits: go on after it. */
    | Skip(next: nat)
    /** A footer that fits: the loop returns this offset. */
    | Footer
    /** The loop throws. */
    | Stop(error: ZipError)

  /** One pass of the loop in `FindZipFooterOffset`, at an offset the loop guard admits. */
  function ScanStep(data: seq<byte>, offset: nat): (r: Step)
    requires offset + 4 < |data|
    ensures r.Skip? ==> offset + LocalFileHeaderSize <= r.next <= |data|
    ensures r.Skip? && ReadUInt32(data, offset) == LocalFileHeaderSignature ==>
      r.next == offset + LocalRecordSpan(ParseLocalFileHeader(data, offset))
    ensures r.Skip? && ReadUInt32(data, offset) != LocalFileHeaderSignature ==>
      && ReadUInt32(data, offset) == CentralFileHeaderSignature
      && offset + CentralFileHeaderSize <= |data|
      && r.next == offset + CentralRecordSpan(ParseCentralFileHeader(data, offset))
    ensures r.Footer? <==> IsFooterAt(data, offset)
    ensures r.Stop? ==> IsScanError(r.error)
    ensures r == Stop(UnhandledRecordHeader(ReadUInt32(data, offset)))
      <==> ReadUInt32(data, offset) !in {LocalFileHeaderSignature, CentralFileHeaderSignature, EndOfCentralDirSignature}
    ensures r == Stop(InvalidLocalFileRecord)
      <==> ReadUInt32(data, offset) == LocalFileHeaderSignature && LocalFileRecordSize(data, offset).None?
    ensures r == Stop(InvalidCentralFileRecord)
      <==> ReadUInt32(data, offset) == CentralFileHeaderSignature && CentralFileRecordSize(data, offset).None?
    ensures r == Stop(InvalidEndOfCentralDirRecord)
      <==> ReadUInt32(data, offset) == EndOfCentralDirSignature && EndOfCentralDirRecordSize(data, offset).None?
  {
    var signature := ReadUInt32(data, offset);
    if signature == LocalFileHeaderSignature then
      match LocalFileRecordSize(data, offset)
      case None => Stop(InvalidLocalFileRecord)
      case Some(recordSize) => Skip(offset + recordSize)
    else if signature == CentralFileHeaderSignature then
      match CentralFileRecordSize(data, offset)
      case None => Stop(InvalidCentralFileRecord)
      case Some(recordSize) => Skip(offset + recordSize)
    else if signature == EndOfCentralDirSignature then
      if EndOfCentralDirRecordSize(data, offset).None? then Stop(InvalidEndOfCentralDirRecord)
      else Footer
    else
      Stop(UnhandledRecordHeader(signature))
  }

  /**
    The loop of `FindZipFooterOffset` from `offset` on: the offset of the
    footer, or the exception the loop throws.
   */
  function ScanRecords(data: seq<byte>, offset: nat): (r: Result<nat, ZipError>)
    ensures r.Success? ==> offset <= r.value && IsFooterAt(data, r.value)
    ensures r.Failure? ==> IsScanError(r.error)
    decreases |data| - offset
  {
    if offset >= |data| - 4 then
      Failure(UnparsableZip)
    else
      match ScanStep(data, offset)
      case Skip(next) => ScanRecords(data, next)
      case Footer => Success(offset)
      case Stop(error) => Failure(error)
  }

  /**
    `FindZipFooterOffset`: the offset of the end-of-central-directory record.
    On success the 4 bytes there are its signature and the record, comment
    included, lies inside the buffer.
   */
  function FindZipFooterOffset(data: seq<byte>): (r: Result<nat, ZipError>)
    ensures r.Success? ==> IsFooterAt(data, r.value)
    ensures r.Success? ==> r.value + EndOfCentralDirSize + CommentLength(data, r.value) <= |data|
    ensures r.Failure? ==> IsScanError(r.error)
  {
    ScanRecords(data, 0)
  }

  /** The scan goes on where a record step lands. */
  lemma ScanSkips(data: seq<byte>, offset: nat, next: nat)
    requires offset + 4 < |data| && ScanStep(data, offset) == Skip(next)
    ensures ScanRecords(data, offset) == ScanRecords(data, next)
  {
  }

  /** The scan fails where the loop guard fails or a step throws. */
  lemma ScanStops(data: seq<byte>, offset: nat)
    requires offset + 4 >= |data| || ScanStep(data, offset).Stop?
    ensures ScanRecords(data, offset).Failure?
  {
  }

  /** The scan returns the offset of a footer it steps onto. */
  lemma ScanFinds(data: seq<byte>, offset: nat)
    requires offset + 4 < |data| && ScanStep(data, offset).Footer?
    ensures ScanRecords(data, offset) == Success(offset)
  {
  }

  /** Fields read from a prefix of a buffer are those of the buffer. */
  lemma ReadInPrefix(data: seq<byte>, n: nat, offset: nat)
    requires n <= |data|
    ensures offset + 4 <= n ==> ReadUInt32(data[..n], offset) == ReadUInt32(data, offset)
    ensures offset + LocalFileHeaderSize <= n ==> LocalRecordSpanAt(data[..n], offset) == LocalRecordSpanAt(data, offset)
    ensures offset + CentralFileHeaderSize <= n ==> CentralRecordSpanAt(data[..n], offset) == CentralRecordSpanAt(data, offset)
    ensures offset + EndOfCentralDirSize <= n ==> EndRecordSpanAt(data[..n], offset) == EndRecordSpanAt(data, offset)
  {
  }

  /**
    Two buffers that agree on their first `n` bytes take the same step over a
    record that ends by `n`, and see the same signature at any offset before `n`.
   */
  lemma StepAgrees(data: seq<byte>, other: seq<byte>, n: nat, offset: nat)
    requires n <= |data| && n <= |other| && data[..n] == other[..n]
    requires offset + 4 < n
    ensures ReadUInt32(other, offset) == ReadUInt32(data, offset)
    ensures ScanStep(data, offset).Skip? && ScanStep(data, offset).next <= n
      ==> ScanStep(other, offset) == ScanStep(data, offset)
  {
    ReadInPrefix(data, n, offset);
    ReadInPrefix(other, n, offset);
  }

  /**
    The scan never reads past the comment-length field of the footer it finds,
    and never checks the buffer size against anything before that footer, so
    another buffer that agrees with this one up to that field, and whose own
    footer comment fits, scans to the same footer.
   */
  lemma {:induction false} ScanIgnoresComment(data: seq<byte>, other: seq<byte>, offset: nat, p: nat)
    requires ScanRecords(data, offset) == Success(p)
    requires IsFooterAt(other, p)
    requires data[..p + CommentLengthOffset] == other[..p + CommentLengthOffset]
    ensures ScanRecords(other, offset) == Success(p)
    decreases |data| - offset
  {
    var n := p + CommentLengthOffset;
    StepAgrees(data, other, n, offset);
    if offset < p {
      var next := ScanStep(data, offset).next;
      ScanIgnoresComment(data, other, next, p);
    }
  }

  /**
    A central record whose entry comment is not empty throws the scan off:
    the scanner skips only the header, file name and extra field, and reads
    the comment's first four bytes as the next record signature. An archive
    holding one such record, its comment and a footer, as APPNOTE.TXT lays
    them out, is rejected with that signature.
   */
  lemma EntryCommentStopsScan(h: CentralFileHeader, comment: seq<byte>, footer: EndOfCentralDirHeader)
    requires h.signature == CentralFileHeaderSignature && footer.signature == EndOfCentralDirSignature
    requires h.fileNameLength == 0 && h.extraFieldLength == 0
    requires |comment| == h.fileCommentLength >= 4
    requires ReadUInt32(comment, 0) !in {LocalFileHeaderSignature, CentralFileHeaderSignature, EndOfCentralDirSignature}
    ensures FindZipFooterOffset(SerializeCentralFileHeader(h) + comment + SerializeEndOfCentralDirHeader(footer))
      == Failure(UnhandledRecordHeader(ReadUInt32(comment, 0)))
  {
    var tail := comment + SerializeEndOfCentralDirHeader(footer);
    var data := SerializeCentralFileHeader(h) + tail;
    assert data == SerializeCentralFileHeader(h) + comment + SerializeEndOfCentralDirHeader(footer);
    ParseSerializedCentralFileHeader(h, tail);
    assert CentralFileRecordSize(data, 0) == Some(CentralFileHeaderSize);
    assert ScanStep(data, 0) == Skip(CentralFileHeaderSize);
    assert data[46..46 + |comment|] == comment;
    FieldsInSlice(data, 46, 46 + |comment|, 0);
    assert ScanStep(data, 46) == Stop(UnhandledRecordHeader(ReadUInt32(comment, 0)));
    assert ScanRecords(data, 46) == Failure(UnhandledRecordHeader(ReadUInt32(comment, 0)));
    ScanSkips(data, 0, 46);
  }
}

=== FILE: zip_signing.dfy ===
/**
  Signing and checking an archive (`Sign` and `GetSignature` in ZipFile.cs).
  Signing hashes the archive, has an external signer sign the digest text,
  folds the signed catalog into a signature line and stores it as the archive
  comment. Checking recomputes the digest, takes the signature line from the
  comment and rejects the archive when the signed digest is not the current
  one. The external signer is a parameter; the external signature check is not
  modelled.
 */
module ZipSigning {
  import opened Wrappers
  import opened Bytes
  import opened Text
  import opened ZipErrors
  import opened ZipScanner
  import opened ZipComment
  import opened ZipDigest
  import opened ZipEnvelope

  /**
    The external signer: the lines of the signed `.sig.ps1` file, as
    `File.ReadAllLines` returns them, given the digest text written to it.
   */
  type Signer = string -> seq<string>

  /**
    `Sign`: the archive with the signature line, folded from the signed
    catalog, as its comment. It fails when the scanner fails or when the
    signed file has fewer than four lines. The signed archive hashes as the
    original did, and its comment reads back as the line whenever the line's
    UTF-8 encoding fits the 16-bit length field and decodes to the line.
   */
  function Sign(utf8: Utf8, sha256: Sha256, signer: Signer, data: seq<byte>): (r: Result<seq<byte>, ZipError>)
    ensures FindZipFooterOffset(data).Failure? ==> r == Failure(FindZipFooterOffset(data).error)
    ensures FindZipFooterOffset(data).Success? ==>
      var lines := signer(GetDigestString(sha256, data).value);
      && (r.Success? <==> |lines| >= 4)
      && (r.Failure? ==> r.error == InvalidSignatureFile)
      && (r.Success? ==> GetFileComment(utf8, r.value).Success?)
    ensures r.Success? ==>
      && ComputeHash(sha256, r.value) == ComputeHash(sha256, data)
      && GetDigestString(sha256, r.value) == GetDigestString(sha256, data)
    ensures r.Success? ==>
      var line := LoadSignatureFile(signer(GetDigestString(sha256, data).value)).value;
      && r.value == SetFileComment(utf8, data, Some(line)).value.data
      && (|utf8.encode(line)| <= 0xFFFF && utf8.decode(utf8.encode(line)) == line ==>
            GetFileComment(utf8, r.value) == Success(line))
  {
    var zipDigest :- GetDigestString(sha256, data);
    var sigCommentLine :- LoadSignatureFile(signer(zipDigest));
    var edit := SetFileComment(utf8, data, Some(sigCommentLine)).value;
    SetFileCommentKeepsDigest(sha256, utf8, data, Some(sigCommentLine));
    assert |utf8.encode(sigCommentLine)| <= 0xFFFF && utf8.decode(utf8.encode(sigCommentLine)) == sigCommentLine ==>
      GetFileComment(utf8, edit.data) == Success(sigCommentLine) by {
      if |utf8.encode(sigCommentLine)| <= 0xFFFF && utf8.decode(utf8.encode(sigCommentLine)) == sigCommentLine {
        assert CommentText(Some(sigCommentLine)) == sigCommentLine;
        GetFileCommentAfterSet(utf8, data, Some(sigCommentLine));
      }
    }
    Success(edit.data)
  }

  /** What a passing check yields: the signed digest, the block and the catalog handed to the signature check. */
  datatype CheckedSignature = CheckedSignature(digest: string, block: string, catalog: string)

  /**
    `GetSignature`, up to the external signature check: the archive's digest,
    its signature line (missing when the comment has none), the line's parts,
    the catalog rebuilt from them, and the comparison of the signed digest with
    the archive's own. It passes only when the two digests are equal.
   */
  function GetSignature(utf8: Utf8, sha256: Sha256, data: seq<byte>): (r: Result<CheckedSignature, ZipError>)
    ensures FindZipFooterOffset(data).Failure? ==> r == Failure(FindZipFooterOffset(data).error)
    ensures FindZipFooterOffset(data).Success? && GetSignatureString(utf8, data).value.None? ==>
      r == Failure(MissingSignature)
    ensures r.Success? ==>
      && GetDigestString(sha256, data) == Success(r.value.digest)
      && GetSignatureString(utf8, data).value.Some?
      && SplitSignatureCommentLine(GetSignatureString(utf8, data).value.value)
        == Success(SignatureParts(r.value.digest, r.value.block))
    ensures r.Success? ==> r.value.catalog == JoinLines(CatalogLines(SignatureParts(r.value.digest, r.value.block)))
    ensures (&& FindZipFooterOffset(data).Success?
             && GetSignatureString(utf8, data).value.Some?
             && SplitSignatureCommentLine(GetSignatureString(utf8, data).value.value).Failure?) ==>
      r == Failure(InvalidSignatureLine)
    ensures (r.Failure? && r.error == DigestMismatch) <==>
      && FindZipFooterOffset(data).Success?
      && GetSignatureString(utf8, data).value.Some?
      && var split := SplitSignatureCommentLine(GetSignatureString(utf8, data).value.value);
      && split.Success?
      && split.value.digest != GetDigestString(sha256, data).value
  {
    var zipDigest :- GetDigestString(sha256, data);
    var sigCommentLine := GetSignatureString(utf8, data).value;
    if sigCommentLine.None? then Failure(MissingSignature)
    else
      var parts :- SplitSignatureCommentLine(sigCommentLine.value);
      var catalog := JoinLines(CatalogLines(parts));
      if parts.digest != zipDigest then Failure(DigestMismatch)
      else Success(CheckedSignature(parts.digest, parts.block, catalog))
  }

  /** A digest string has no whitespace. */
  lemma DigestStringHasNoWhiteSpace(sha256: Sha256, data: seq<byte>)
    requires FindZipFooterOffset(data).Success?
    ensures NoWhiteSpace(GetDigestString(sha256, data).value)
  {
    var d := GetDigestString(sha256, data).value;
    forall k | 0 <= k < |d|
      ensures !IsWhiteSpace(d[k])
    {
      if k < 7 {
        assert d[k] == DigestPrefix[k];
      }
    }
  }

  /**
    The signature line composed from a digest string and a clean block is
    found in a comment holding only it, and splits back into the two.
   */
  lemma ComposedLineReadsBack(digest: string, block: string)
    requires |digest| == DigestLength && digest[..7] == DigestPrefix && NoWhiteSpace(digest)
    requires |block| >= 1 && NoWhiteSpace(block)
    ensures var line := ComposeSignatureLine(digest, block);
      && SignatureLineOf(line) == Some(line)
      && SplitSignatureCommentLine(line) == Success(SignatureParts(digest, block))
  {
    var line := ComposeSignatureLine(digest, block);
    NoWhiteSpaceNoLineEnd(digest);
    NoWhiteSpaceNoLineEnd(block);
    assert '\n' !in line by {
      assert line == SignatureKey + digest + "," + block;
    }
    assert StartsWith(line, SignatureTag) by {
      assert line[..|SignatureTag|] == SignatureKey[..|SignatureTag|];
    }
    assert line[|line| - 1] == block[|block| - 1];
    SignatureLineOfSingleLine(line);
    assert StartsWith(digest, DigestPrefix);
    SplitOfCompose(digest, block);
  }

  /** Signing with a signer that returns a clean catalog stores the composed line as the comment. */
  lemma SignStoresLine(utf8: Utf8, sha256: Sha256, signer: Signer, data: seq<byte>, block: string)
    requires FindZipFooterOffset(data).Success?
    requires signer(GetDigestString(sha256, data).value)
      == CatalogLines(SignatureParts(GetDigestString(sha256, data).value, block))
    requires |block| >= 1 && '#' !in block
    ensures var line := ComposeSignatureLine(GetDigestString(sha256, data).value, block);
      Sign(utf8, sha256, signer, data) == Success(SetFileComment(utf8, data, Some(line)).value.data)
  {
    DigestStringHasNoWhiteSpace(sha256, data);
    LoadOfCatalog(SignatureParts(GetDigestString(sha256, data).value, block));
  }

  /**
    Signing and then checking, with no edit in between, passes, and yields the
    digest that was signed and the block the signer produced. The signer must
    return a catalog of the digest with a non-empty block free of whitespace
    and `#` (base64 text is), and the signature line must fit the comment and
    survive UTF-8 encoding and decoding.
   */
  lemma SignThenGetSignature(utf8: Utf8, sha256: Sha256, signer: Signer, data: seq<byte>, block: string)
    requires FindZipFooterOffset(data).Success?
    requires signer(GetDigestString(sha256, data).value)
      == CatalogLines(SignatureParts(GetDigestString(sha256, data).value, block))
    requires |block| >= 1 && NoWhiteSpace(block) && '#' !in block
    requires var line := ComposeSignatureLine(GetDigestString(sha256, data).value, block);
      && |utf8.encode(line)| <= 0xFFFF
      && utf8.decode(utf8.encode(line)) == line
    ensures Sign(utf8, sha256, signer, data).Success?
    ensures var digest := GetDigestString(sha256, data).value;
      GetSignature(utf8, sha256, Sign(utf8, sha256, signer, data).value)
        == Success(CheckedSignature(digest, block, JoinLines(CatalogLines(SignatureParts(digest, block)))))
  {
    var digest := GetDigestString(sha256, data).value;
    var line := ComposeSignatureLine(digest, block);
    assert CommentText(Some(line)) == line;
    assert DigestLength == |digest|;
    hide *;
    var signed := SetFileComment(utf8, data, Some(line)).value.data;
    SignStoresLine(utf8, sha256, signer, data, block);
    SetFileCommentKeepsDigest(sha256, utf8, data, Some(line));
    GetFileCommentAfterSet(utf8, data, Some(line));
    DigestStringHasNoWhiteSpace(sha256, data);
    ComposedLineReadsBack(digest, block);
    GetSignaturePasses(utf8, sha256, signed, line);
  }

  /** The check passes when the split signature line carries the archive's own digest. */
  lemma GetSignaturePasses(utf8: Utf8, sha256: Sha256, data: seq<byte>, line: string)
    requires GetSignatureString(utf8, data) == Success(Some(line))
    requires SplitSignatureCommentLine(line).Success?
    requires GetDigestString(sha256, data) == Success(SplitSignatureCommentLine(line).value.digest)
    ensures var parts := SplitSignatureCommentLine(line).value;
      GetSignature(utf8, sha256, data) == Success(CheckedSignature(parts.digest, parts.block, JoinLines(CatalogLines(parts))))
  {
  }

  /**
    An archive whose hash differs from the signed archive's fails the check
    with a digest mismatch, even when it carries the same signature line.
   */
  lemma ChangedHashFailsCheck(utf8: Utf8, sha256: Sha256, data: seq<byte>, changed: seq<byte>)
    requires GetSignature(utf8, sha256, data).Success?
    requires FindZipFooterOffset(changed).Success?
    requires GetSignatureString(utf8, changed) == GetSignatureString(utf8, data)
    requires ComputeHash(sha256, changed) != ComputeHash(sha256, data)
    ensures GetSignature(utf8, sha256, changed) == Failure(DigestMismatch)
  {
    var h1 := ComputeHash(sha256, data).value;
    var h2 := ComputeHash(sha256, changed).value;
    assert GetDigestString(sha256, data).value == DigestString(h1);
    assert GetDigestString(sha256, changed).value == DigestString(h2);
    DigestStringSameIff(h1, h2);
  }

  /**
    A signed file whose catalog has no chunk lines still has four lines when a
    blank line follows the end marker, so signing accepts it and stores the
    88-character line `ZipAuthenticode=<digest>,` with an empty block. The
    check then rejects the signed archive: the line is one character short of
    what `SplitSignatureCommentLine` accepts.
   */
  lemma SignEmptyBlock(utf8: Utf8, sha256: Sha256, signer: Signer, data: seq<byte>)
    requires FindZipFooterOffset(data).Success?
    requires var digest := GetDigestString(sha256, data).value;
      signer(digest) == [digest, BeginMarker, EndMarker, ""]
    requires var line := ComposeSignatureLine(GetDigestString(sha256, data).value, "");
      && |utf8.encode(line)| <= 0xFFFF
      && utf8.decode(utf8.encode(line)) == line
    ensures var line := ComposeSignatureLine(GetDigestString(sha256, data).value, "");
      && |line| == MinimumLineLength - 1
      && Sign(utf8, sha256, signer, data) == Success(SetFileComment(utf8, data, Some(line)).value.data)
      && GetSignature(utf8, sha256, Sign(utf8, sha256, signer, data).value) == Failure(InvalidSignatureLine)
  {
    var digest := GetDigestString(sha256, data).value;
    var line := ComposeSignatureLine(digest, "");
    DigestStringHasNoWhiteSpace(sha256, data);
    LoadEmptyCatalog(digest);
    EmptyBlockLineIsFound(digest);
    hide *;
    var signed := Sign(utf8, sha256, signer, data).value;
    assert GetFileComment(utf8, signed) == Success(line);
    assert FindZipFooterOffset(signed).Success?;
    assert GetSignatureString(utf8, signed) == Success(Some(line));
  }
}
